=== FILE: README.md ===
# Admin backend core, modelled in Dafny

This project models the logic at the centre of a Laravel admin API for a website:

- **Typed configuration values.**
  - Each row of the `configuraciones` table stores its value as text (`valor`) with a type tag (`tipo`).
  - The decoder turns the text into a typed value. `json` goes through `json_decode`, `booleano` through PHP's `(bool)` cast, `numero` through PHP's `(int)` cast, and any other tag returns the text unchanged.
  - The decoder is written out three times in the source: in the model, in the JSON resource and inline in `obtenerTodas`.
- **Configuration store.** The operations are listing, grouping, lookup, single update (including the image-upload branch), all-or-nothing bulk update, the flat key/value snapshot, image lookup and image upload.
- **Banners.**
  - The `activos` and `ordenados` scopes.
  - The CRUD controller, with its validation rules, partial update and derived image paths.
- **Users.**
  - The listing filters and order.
  - Creation and partial update, with their validation.
  - Profile and password changes of the authenticated user.
  - The admin-panel access check.
- **Password reset.** A state machine over the `password_reset_tokens` table: issue a token, validate it with a 24-hour expiry, consume it.
- **The JSON envelope.** `ApiResponse::success` and `ApiResponse::error`.

Every controller action is a pure function from a state to a new state plus an `Outcome`. An `Outcome` is either `Done(code, value)` or `Refused(code)`.

- The configuration store and banner table are sequences of row datatypes. The user table works the same way.
- The public directory is a `set<string>` of existing paths.
- The token table is a `map` from e-mail address to its row.
- Anything the code receives from outside is a parameter:
  - `time()`, `Str::random` and whether mail delivery succeeded;
  - Carbon's hour difference;
  - the JSON parser (`JsonParser`);
  - `Hash::make`, `Hash::check` and the e-mail syntax check (`Laravel.Services`).

Laravel validation rules are predicates over `Option<Value>`. `None` is an absent key, and `Some(Null)` is a key present with a null value.

Modules follow the source:

| module | models |
|---|---|
| `Php` | PHP values, `(bool)`/`(int)` casts, truthiness, `empty()` |
| `Laravel` | status codes, validation rules, uploads, hashing collaborators |
| `Seqs`, `Sorting` | first-match lookup, `where` filtering, `orderBy` as a sort |
| `ApiResponse` | app/Http/Responses/ApiResponse.php |
| `Configuraciones` | app/Models/Configuraciones.php |
| `ConfiguracionResource` | app/Http/Resources/ConfiguracionResource.php |
| `ConfiguracionesController` | app/Http/Controllers/Api/ConfiguracionesController.php |
| `Banner` | app/Models/Banner.php |
| `BannerController` | app/Http/Controllers/Api/BannerController.php |
| `UserController` | app/Http/Controllers/UserController.php |
| `AuthController` | the password-reset and profile parts of app/Http/Controllers/AuthController.php |

## Model

| member | source | states |
|---|---|---|
| ApiResponse.Success | app/Http/Responses/ApiResponse.php:15-22 | The body has exactly the keys status, message and data, in that order: status is "success", message and data are the arguments, and the code is the argument. |
| ApiResponse.Error | app/Http/Responses/ApiResponse.php:32-44 | The body always has status "error" and the message, and never a data key. The `errors` key is present exactly when the payload is PHP-truthy, and then it carries the payload. |
| ApiResponse.Defaults | app/Http/Responses/ApiResponse.php:15-32 | With no arguments, success answers 200 with "Operación exitosa" and null data. Error answers 400 with "Ha ocurrido un error" and no errors key. |
| ApiResponse.FalsyErrorsOmitted | app/Http/Responses/ApiResponse.php:39-41 | A null, empty-array, "" or "0" error payload leaves the `errors` key out. |
| Php.StringToInt | app/Models/Configuraciones.php:90-91 | The `(int)` cast of text always lies between `PHP_INT_MIN` and `PHP_INT_MAX`. A string with no digit at all casts to 0, and a negative result needs a minus sign in the text. |
| Php.Saturate | app/Models/Configuraciones.php:90-91 | Clamping to PHP's 64-bit integer range keeps every in-range value and sends values beyond it to the nearer bound. |
| Php.IntCastOfRendering | app/Models/Configuraciones.php:90-91 | PHP's `(int)` cast reads back any integer in PHP's 64-bit range from its decimal rendering. This also holds when text follows that cannot continue a number: not a digit, `.`, `e` or `E`. |
| Php.IntCastSaturates | app/Models/Configuraciones.php:90-91 | The decimal rendering of an integer beyond PHP's 64-bit range casts to `PHP_INT_MAX` when the integer is positive and to `PHP_INT_MIN` when it is negative. |
| Configuraciones.Decode | app/Models/Configuraciones.php:83-95 | Total decoder, characterised per tag. `json` is null exactly when the text fails to parse or parses to null, and is otherwise the parsed value. `booleano` is false exactly for null, "" and "0". `numero` is the integer cast. Any other tag is the raw column, null exactly when the column is null. |
| Configuraciones.BooleanDecoding | app/Models/Configuraciones.php:88-89 | "0", "" and null decode to false. "1", "false", "0.0" and " 0" decode to true. |
| Configuraciones.BooleanRoundTrip | app/Models/Configuraciones.php:88-89 | A boolean stored as "1"/"0" or as "1"/"" decodes back to itself. |
| Configuraciones.NumberRoundTrip | app/Models/Configuraciones.php:90-91 | An integer in PHP's 64-bit range, stored in decimal, decodes back to itself. It may be followed by text that starts with neither a digit nor `.`, `e` or `E`. |
| Configuraciones.NumberSaturates | app/Models/Configuraciones.php:90-91 | A `numero` value stored in decimal beyond PHP's 64-bit range decodes to the nearer bound, `PHP_INT_MAX` or `PHP_INT_MIN`. |
| Configuraciones.NumberDecodingDigits | app/Models/Configuraciones.php:90-91 | "10" decodes to 10 and "12abc" to 12. |
| Configuraciones.NumberDecodingNonNumeric | app/Models/Configuraciones.php:90-91 | "abc", "" and null decode to 0. |
| Configuraciones.JsonFailureIsNull | app/Models/Configuraciones.php:86-87 | Malformed JSON decodes to null, which cannot be told apart from the text "null" or a null column. |
| Configuraciones.IdentityTypes | app/Models/Configuraciones.php:92-93 | texto, color, imagen and unknown tags return the stored column unchanged. |
| Configuraciones.ObtenerValor | app/Models/Configuraciones.php:49-59 | When no row has the clave, the result is the caller's default. Otherwise it is the decode of the first row with that clave. |
| Configuraciones.InGroup | app/Models/Configuraciones.php:69 | Every row returned belongs to the requested group. |
| Configuraciones.ObtenerGrupo | app/Models/Configuraciones.php:67-75 | Gives the group's rows in order, each unchanged and annotated with its decode. |
| Configuraciones.ObtenerGrupoExact | app/Models/Configuraciones.php:67-75 | A row appears in the result if and only if it is in the table and belongs to the group. |
| Configuraciones.SeederExamples | database/seeders/ConfiguracionesSeeder.php:129-142 | `modo_mantenimiento` "0" reads false, `items_por_pagina` "10" reads 10, and a missing key reads the default. |
| ConfiguracionResource.Decode | app/Http/Resources/ConfiguracionResource.php:37-49 | The resource's own `switch` decoder gives the model decoder's value for every (tipo, valor). |
| ConfiguracionResource.DecodersAgree | app/Http/Resources/ConfiguracionResource.php:37-49 | The resource's `switch` decoder equals the model's decoder on every (tipo, valor). |
| ConfiguracionResource.FieldsDistinct | app/Http/Resources/ConfiguracionResource.php:19-29 | The nine output keys are pairwise distinct. |
| ConfiguracionResource.ToArray | app/Http/Resources/ConfiguracionResource.php:15-30 | The keys are exactly the nine fields, in order. Every column is copied verbatim, and the raw `valor` sits next to `valor_procesado`, which is the model decoder's result. |
| ConfiguracionResource.Collection | app/Http/Controllers/Api/ConfiguracionesController.php:29 | Gives one projection per row, in row order. |
| ConfiguracionesController.Index | app/Http/Controllers/Api/ConfiguracionesController.php:20-30 | Without `grupo`, every row in table order. With it, exactly the rows of that group, each as often as in the table. |
| ConfiguracionesController.IndexKeepsOrder | app/Http/Controllers/Api/ConfiguracionesController.php:22-25 | With `grupo`, table order is kept. An empty table lists nothing. A row appended to the table is appended to the listing exactly when it belongs to the group. |
| ConfiguracionesController.DistinctGroups | app/Http/Controllers/Api/ConfiguracionesController.php:39 | Gives each group name once, and exactly the names some row carries. |
| ConfiguracionesController.Grupos | app/Http/Controllers/Api/ConfiguracionesController.php:37-52 | The group list is duplicate-free, and the map's keys are exactly the groups that occur. Each key maps to exactly that group's rows. |
| ConfiguracionesController.GruposPartition | app/Http/Controllers/Api/ConfiguracionesController.php:39-46 | Every row is listed under its own group and under no other. |
| ConfiguracionesController.Show | app/Http/Controllers/Api/ConfiguracionesController.php:60-71 | Answers 404 exactly when no row has the clave. Otherwise it answers the first row with that clave. |
| ConfiguracionesController.ImagePathsDifferAcrossSeconds | app/Http/Controllers/Api/ConfiguracionesController.php:111-116 | Two uploads of the same name in one group at different seconds get different paths. |
| ConfiguracionesController.ReplaceImage | app/Http/Controllers/Api/ConfiguracionesController.php:106-116 | The new path exists afterwards. Any other path exists afterwards exactly when it existed before and was not the previous `valor` with a truthy value. |
| ConfiguracionesController.Update | app/Http/Controllers/Api/ConfiguracionesController.php:80-124 | An unknown id gives 404 before validation. Neither `valor` nor `archivo` gives 422. In both cases nothing changes, as after any refusal. A known id with a valid body always answers 200. On success only the target's `valor` changes. For an image row with a file, `valor` is `assets/configuraciones/<grupo>/<t>_<name>` and the old file is replaced. Otherwise `valor` is the request's (null when absent) and the files are untouched. |
| ConfiguracionesController.SubirImagen | app/Http/Controllers/Api/ConfiguracionesController.php:225-269 | An unknown id gives 404. A missing or oversized file, or a non-image row, gives 422. In both cases nothing changes, as after any refusal. A known image row with a valid file always answers 200. On success only the target's `valor` becomes the derived path, and the old file is replaced. |
| ConfiguracionesController.UpdatesKeepIdsUnique | app/Http/Controllers/Api/ConfiguracionesController.php:116-121 | update and subirImagen keep the primary key unique. |
| ConfiguracionesController.OldImageDeletion | app/Http/Controllers/Api/ConfiguracionesController.php:255-258 | An existing previous image disappears exactly when its path is truthy (not "" or "0") and differs from the new path. |
| ConfiguracionesController.ActualizarMultiple | app/Http/Controllers/Api/ConfiguracionesController.php:132-155 | An invalid batch gives 422 with the store unchanged. A valid batch applies its writes. The files are never touched. |
| ConfiguracionesController.SetValorEffect | app/Http/Controllers/Api/ConfiguracionesController.php:147-149 | One write changes exactly the `valor` of the row with that id and keeps ids unique. |
| ConfiguracionesController.ApplyBulkEffect | app/Http/Controllers/Api/ConfiguracionesController.php:146-150 | After the writes, each row has the `valor` of the last item naming its id. Rows no item names are unchanged. |
| ConfiguracionesController.AfterBulkSplit | app/Http/Controllers/Api/ConfiguracionesController.php:146-150 | Applying the first item and then the rest has the same effect as the whole batch. |
| ConfiguracionesController.ActualizarMultipleEffect | app/Http/Controllers/Api/ConfiguracionesController.php:134-150 | The batch is refused if and only if it is invalid. When accepted, every row gets the last listed `valor` for its id. |
| ConfiguracionesController.UnknownIdRejectsBatch | app/Http/Controllers/Api/ConfiguracionesController.php:136-143 | One unknown id rejects the whole batch with nothing changed. |
| ConfiguracionesController.SnapshotValue | app/Http/Controllers/Api/ConfiguracionesController.php:171-181 | The inline decoder of `obtenerTodas` gives the model decoder's value for every row. |
| ConfiguracionesController.DecoderCopiesAgree | app/Http/Controllers/Api/ConfiguracionesController.php:171-181 | The inline decoder of `obtenerTodas` and the resource's decoder both equal the model's. |
| ConfiguracionesController.ObtenerTodas | app/Http/Controllers/Api/ConfiguracionesController.php:162-187 | The keys are exactly the clave values that occur. Each maps to the decode of the last row with that clave. |
| ConfiguracionesController.ObtenerImagen | app/Http/Controllers/Api/ConfiguracionesController.php:195-216 | No image row with that clave gives 404. For the first image row, a null or empty `valor` gives 500, because it names the public directory, which exists but is not a file. Otherwise the answer is that row's path when the file exists, and 404 when it does not. |
| ConfiguracionesController.ObtenerImagenServesFirst | app/Http/Controllers/Api/ConfiguracionesController.php:197-199 | With two image rows under one clave, the later row's path is never served. |
| ConfiguracionesController.NonImageNotServed | app/Http/Controllers/Api/ConfiguracionesController.php:197-205 | A clave without an image row is always 404. |
| ConfiguracionesController.MaintenanceScenario | app/Http/Controllers/Api/ConfiguracionesController.php:171-183 | `modo_mantenimiento` stored as "0" reads false in the snapshot. After an update to "1" it reads true. |
| Banner.Activos | app/Models/Banner.php:47-50 | Every banner returned is active, and each active banner appears as often as in the input. |
| Banner.Ordenados | app/Models/Banner.php:58-61 | Gives a permutation of the input, non-decreasing in `orden`. |
| Banner.ActivoCast | app/Models/Banner.php:34-37 | The boolean cast reads true, 1 and "1" as active, and false, 0 and "0" as inactive. |
| BannerController.Index | app/Http/Controllers/Api/BannerController.php:20-24 | Gives exactly the active banners, each as often as stored, non-decreasing in `orden`. |
| BannerController.Admin | app/Http/Controllers/Api/BannerController.php:31-35 | Gives every banner, active or not, as a permutation, non-decreasing in `orden`. |
| BannerController.Show | app/Http/Controllers/Api/BannerController.php:83-94 | Answers 404 exactly when no banner has the id. Otherwise it answers a stored banner with that id. |
| BannerController.Store | app/Http/Controllers/Api/BannerController.php:43-75 | Any failed rule gives 422 with table and files unchanged. Otherwise it answers 201 with a new row. The row has the next id and the validated texts within their limits. `descripcion` is the request's, null when absent. `orden` is the request's integer, at least 0. `activo` is the cast request value and defaults to true. The row also has `imagen` equal to `assets/banners/<t>_<name>`, and that file is added. |
| BannerController.Update | app/Http/Controllers/Api/BannerController.php:103-146 | An unknown id gives 404 before validation, and a failed rule gives 422, both with nothing changed. A known id with valid fields always answers 200. Only the target row changes. Each supplied field takes the request's value (text, nullable text, integer `orden`, cast `activo`), and every other field stays. A new image replaces the old file when the old path is truthy and exists. |
| BannerController.Destroy | app/Http/Controllers/Api/BannerController.php:154-169 | An unknown id gives 404 with nothing changed. Otherwise exactly that row is removed and the files are untouched. |
| BannerController.StoreThenShow | app/Http/Controllers/Api/BannerController.php:70-93 | A stored banner keeps the table valid and is found again by `show`. |
| BannerController.DestroyThenShow | app/Http/Controllers/Api/BannerController.php:156-164 | After destroy the id gives 404, every other banner remains, and the table stays valid. |
| BannerController.UpdateKeepsTableValid | app/Http/Controllers/Api/BannerController.php:143 | An update keeps ids unique and below the counter. |
| BannerController.ActiveByDefault | database/migrations/2023_06_20_create_banners_table.php:22 | A banner stored without `activo` is active and is listed by `index`. |
| BannerController.LongTitleRejected | app/Http/Controllers/Api/BannerController.php:45-58 | A title over 150 characters gives 422 and inserts nothing. |
| BannerController.OrdenBeyondIntRangeRejected | app/Http/Controllers/Api/BannerController.php:51-58 | An `orden` outside PHP's 64-bit integer range gives 422, whether sent as a number or as its decimal text, and inserts nothing. |
| BannerController.BadOrdenRejected | app/Http/Controllers/Api/BannerController.php:51-58 | A non-integer or negative `orden` gives 422 and inserts nothing. |
| UserController.Index | app/Http/Controllers/UserController.php:28-66 | Gives exactly the users passing the non-empty filters, each as often as stored, in descending id order. |
| UserController.NoFiltersListEveryone | app/Http/Controllers/UserController.php:40-50 | Empty filters list every user. |
| UserController.ZeroIsNoFilter | app/Http/Controllers/UserController.php:40-50 | Because the test is `empty()`, a search or role of "0" filters nothing. |
| UserController.RoleFilter | app/Http/Controllers/UserController.php:48-50 | A non-empty role lists a user if and only if the user is stored with exactly that role. |
| UserController.Store | app/Http/Controllers/UserController.php:74-95 | Any failed rule gives 422 with nothing inserted. Otherwise it answers 201 with a new row holding the next id, the fields and the hash of the password. |
| UserController.StoreRejections | app/Http/Controllers/UserController.php:76-85 | An unknown role, a password under 8 characters or a taken e-mail gives 422 with nothing inserted. |
| UserController.StoreKeepsTableValid | app/Http/Controllers/UserController.php:78-92 | Creation keeps ids and e-mails unique, and the new user can sign in with its password. |
| UserController.UpdateAsWritten | app/Http/Controllers/UserController.php:108-140 | The update as the code does it. It has the same 404/422/200 outcomes and field writes as `Update`, except that any present password, null included, is replaced by the hash of its string form. |
| UserController.AsWrittenAgreesOffNull | app/Http/Controllers/UserController.php:113-131 | The code as written and the corrected update agree on every request whose password is not null. |
| UserController.Update | app/Http/Controllers/UserController.php:108-140 | An unknown user gives 404 and a failed rule gives 422, both with nothing changed. A known user with valid fields always answers 200. Exactly the present fields change, in the target row only. The role stays within the three roles. The stored hash changes only for a string password. |
| UserController.NullPasswordAsWritten | app/Http/Controllers/UserController.php:113-131 | As written, a null password is accepted. It replaces the stored hash with the hash of "", and `Hash::check` accepts the empty password against it. |
| UserController.NullPasswordKeepsHash | app/Http/Controllers/UserController.php:113-131 | With the corrected merge, a null password leaves the stored hash unchanged. |
| UserController.OwnEmailAllowed | app/Http/Controllers/UserController.php:112 | Re-sending one's own e-mail passes `unique` and changes nothing. |
| UserController.UpdateKeepsTableValid | app/Http/Controllers/UserController.php:110-137 | An update keeps ids and e-mails unique. |
| UserController.UpdateProfile | app/Http/Controllers/UserController.php:154-180 | No authenticated user gives 401. An authenticated user whose request fails the rules gets 422. It succeeds exactly when the rules hold, and then name, e-mail and role (within the given role set) are replaced. Every refusal leaves the table unchanged. |
| UserController.ProfileUpdate | app/Http/Controllers/UserController.php:154-180 | The user controller's profile update with `in:autor,administrador,cliente`. A successful update leaves the role among the three roles. Any other role is refused with nothing changed. A valid `cliente` request by an existing user succeeds. |
| UserController.UpdatePassword | app/Http/Controllers/UserController.php:188-216 | No user gives 401. Invalid fields give 422. A wrong current password gives 422 with the hash unchanged. Otherwise the hash becomes the new password's. |
| UserController.PasswordChangeTakesEffect | app/Http/Controllers/UserController.php:208-213 | After a successful change, the new password signs in. |
| UserController.CheckAdminAccess | app/Http/Controllers/UserController.php:224-242 | No user gives 401. It answers 200 if and only if the role is administrador or autor, and 403 otherwise. |
| UserController.AdminRoles | app/Http/Controllers/UserController.php:235-239 | Of the three assignable roles, exactly `cliente` is refused. |
| AuthController.ForgotPassword | app/Http/Controllers/AuthController.php:126-156 | An unknown address gives 422 with nothing changed. Otherwise the address's row becomes the fresh token and other rows are unchanged. The row is kept even when the mail fails (500). |
| AuthController.ValidateResetToken | app/Http/Controllers/AuthController.php:164-188 | No matching row gives 400 with the table unchanged. A row older than 24 hours gives 400 and deletes the address's row. Otherwise it answers 200 with the table unchanged. |
| AuthController.FindByEmail | app/Http/Controllers/AuthController.php:214 | Finds a user if and only if some user has that e-mail, and the row found has it. |
| AuthController.ResetPassword | app/Http/Controllers/AuthController.php:196-222 | No matching row gives 400 with users and tokens unchanged. Otherwise only that user's hash changes, to the new password's, and the address's token row is removed. |
| AuthController.UpdateOwnProfile | app/Http/Controllers/AuthController.php:265-290 | A successful profile update leaves the role in {autor, administrador}. `cliente` is refused with nothing changed. |
| AuthController.IssueThenValidate | app/Http/Controllers/AuthController.php:136-187 | A token just issued validates while it is 24 hours old or less, and is kept. |
| AuthController.ReissueInvalidatesOld | app/Http/Controllers/AuthController.php:135-143 | A new request replaces the address's previous token. |
| AuthController.ResetIsSingleUse | app/Http/Controllers/AuthController.php:204-219 | A reset consumes the token, so replaying it gives 400. |
| AuthController.ExpiredTokenStillResets | app/Http/Controllers/AuthController.php:180-219 | A token that validation refuses as expired is still accepted by the reset, which has no age check. |
| AuthController.ResetTakesEffect | app/Http/Controllers/AuthController.php:213-216 | After a reset, the new password signs in. |
| AuthController.ProfileRolesDiffer | app/Http/Controllers/AuthController.php:274-282 | The same `cliente` request succeeds with the user controller's role set and gets 422 here. |

## Left out

- JWT login, register, logout, refresh and profile are not modelled. They are thin wrappers over the JWT library, whose code is not visible. `auth()->id()` is an optional user id.
- AuthController `changePassword` duplicates UserController `updatePassword`, which is modelled.
- UserController `show`, `destroy`, `create` and `edit` are not modelled. They are route-model binding plus one call, and only the named actions are in scope.
- The profile-image actions (`uploadProfileImage`, `getProfileImage`) are not modelled. They write a fixed path and are not part of the core.
- Password hashing, the e-mail syntax check and JSON parsing are abstract parameters, because their code is not visible. `Hash::make` is taken as a function of the password: the salt is abstracted away.
- `time()`, `Carbon::now()`, `Str::random(64)` and mail delivery are inputs.
- AuthController.ValidateResetToken: Carbon's `diffInHours` is a caller-supplied `hoursSince`. Its sign and rounding differ between Carbon versions, so the 24-hour test is stated on whatever that function answers.
- Filesystem effects are reduced to a set of existing paths. Directory creation, the `public_path` prefix and failures of `move` or `unlink` are not modelled.
- Php.StringToInt: does not read fraction or exponent forms. PHP 7.1 and later casts "1e3" to 1000 and "2.5e1" to 25, where the model gives 1 and 2.
- Php.IntCastOfRendering and Configuraciones.NumberRoundTrip: the text after the rendered integer must not start with `.`, `e` or `E`. After such a tail PHP can read a float ("1e3"), which the model's cast does not.
- Configuraciones.Decode: the `numero` case models PHP's integer cast as optional whitespace, an optional sign and leading digits, clamped to `PHP_INT_MIN`..`PHP_INT_MAX`. Exponent and decimal strings such as "1e3" are left out, because PHP's semantics for them are version-specific.
- The Laravel validation engine is reduced to one predicate per rule string. Error messages are not modelled. The rule for skipping non-implicit rules on blank strings is not modelled either: each rule is applied to the value as given.
- `image` is reduced to the extension test of `mimes`, with sizes in kilobytes.
- BannerController.Store and BannerController.Update: `orden` is a 32-bit `integer` column. A value from 2^31 up to PHP's 64-bit maximum passes validation and is stored in the model. The database would refuse that insert or update, or clip it, depending on its strict mode. The `integer` rule is modelled for integers, integer strings and `true`. A float with an integral value and integer text with surrounding whitespace, which `FILTER_VALIDATE_INT` also accepts, are refused in the model.
- ConfiguracionesController.Update and ConfiguracionesController.ActualizarMultiple: `valor` is modelled as a nullable string. The source takes any JSON value. A number or boolean passes `required` and is stored in its string form. A non-empty array also passes `required` or `required_without` and then fails at `save()` with a 500.
- Every string comparison the database performs is exact in the model, while the database collation may compare case-insensitively or ignore trailing spaces. This covers the `unique` and `exists` rules and the `where` on `clave` (Configuraciones.FindByClave, ConfiguracionesController.Show, ConfiguracionesController.ObtenerImagen). It covers the `where` on `grupo` (Configuraciones.InGroup, ConfiguracionesController.Index, ConfiguracionesController.Grupos) and on `rol` (UserController.RoleFilter). It also covers the `email` and `token` lookups of the reset flow (AuthController.TokenMatches, AuthController.FindByEmail).
- UserController.Index: `LIKE '%…%'` is modelled as plain substring containment. The `%` and `_` wildcards inside the search text and the collation's case folding are left out.
- UserController.Index: pagination (`per_page`, `page` and the metadata) is left out. The result is the whole filtered, ordered list.
- Controller answers are modelled as status codes with their payloads. The response bodies of the controllers (messages, resource wrapping) are only modelled for `ApiResponse` itself. `BannerResource` lists the model's attributes, so an answered banner is modelled as the row.
- BannerController.Store: the 201 reply is modelled as the stored row. The source answers with the model `create` returns, which holds only the attributes the request set. So a request without `activo` answers `"activo": null`, while the stored row has the column default true.
- ConfiguracionesController.ObtenerTodas: the result is a map, so the PHP array's key order (order of first occurrence) is not modelled. Nor is the fact that an empty table answers the JSON list `[]` rather than an empty object.
- Banner.Ordenados: rows with equal `orden` come out in a fixed order in the model, while the database leaves it unspecified. The contract promises nothing about ties.
- The `created_at` and `updated_at` columns are carried but not refreshed by updates.
- The token table maps each address to one row, because `forgotPassword` always deletes an address's rows before inserting.
- Routing is not modelled: each action is called directly. In routes/api.php the `users` resource routes are registered before `PUT users/profile` and `PUT users/password`. So as routed, those two paths may reach `update` with route-model binding of "profile" or "password" and answer 404.
- Concurrency is left out: racing requests, and races between deleting and writing files.

## Findings

| source | as written | input that shows it | evidently intended | confidence | as-written member | corrected member |
|---|---|---|---|---|---|---|
| app/Http/Controllers/UserController.php:113-131 | `password` is validated `sometimes\|nullable\|string\|min:8`, so null passes. Then `has('password')` is true and `Hash::make(null)` hashes the empty string. | PUT `/users/{id}` with body `{"password": null}` (also a blank form field, which the default middleware turns into null) | A null password means "leave the password unchanged" | not executed; medium: depends on PHP coercing null to "" inside `password_hash` | UserController.NullPasswordAsWritten | UserController.NullPasswordKeepsHash |

=== FILE: api_response.dfy ===
/** The `{status, message, data|errors}` envelope of app/Http/Responses/ApiResponse.php. */
module ApiResponse {
  import opened Wrappers
  import opened Php

  /** A JSON response: status code and the body's key/value pairs in order. */
  datatype JsonResponse = JsonResponse(code: int, body: seq<(Key, Value)>)

  const DEFAULT_SUCCESS_MESSAGE: string := "Operación exitosa"
  const DEFAULT_ERROR_MESSAGE: string := "Ha ocurrido un error"

  /** `ApiResponse::success($data, $message, $code)`. */
  function Success(data: Value := Null, message: string := DEFAULT_SUCCESS_MESSAGE, code: int := 200): (r: JsonResponse)
    ensures r.code == code
    ensures Keys(r.body) == [StrKey("status"), StrKey("message"), StrKey("data")]
    ensures Get(r.body, StrKey("status")) == Some(Str("success"))
    ensures Get(r.body, StrKey("message")) == Some(Str(message))
    ensures Get(r.body, StrKey("data")) == Some(data)
  {
    var body := [(StrKey("status"), Str("success")), (StrKey("message"), Str(message)), (StrKey("data"), data)];
    GetUniqueKey(body, 0);
    GetUniqueKey(body, 1);
    GetUniqueKey(body, 2);
    JsonResponse(code, body)
  }

  /** `ApiResponse::error($message, $errors, $code)`: `errors` is attached only when truthy. */
  function Error(message: string := DEFAULT_ERROR_MESSAGE, errors: Value := Null, code: int := 400): (r: JsonResponse)
    ensures r.code == code
    ensures Get(r.body, StrKey("status")) == Some(Str("error"))
    ensures Get(r.body, StrKey("message")) == Some(Str(message))
    ensures Get(r.body, StrKey("data")) == None
    ensures Get(r.body, StrKey("errors")).Some? <==> Truthy(errors)
    ensures Truthy(errors) ==> Get(r.body, StrKey("errors")) == Some(errors)
    ensures |r.body| == if Truthy(errors) then 3 else 2
  {
    var base := [(StrKey("status"), Str("error")), (StrKey("message"), Str(message))];
    var body := if Truthy(errors) then base + [(StrKey("errors"), errors)] else base;
    GetUniqueKey(body, 0);
    GetUniqueKey(body, 1);
    if Truthy(errors) then
      GetUniqueKey(body, 2);
      JsonResponse(code, body)
    else
      JsonResponse(code, body)
  }

  /** The defaults: 200 with "Operación exitosa" and null data; 400 with "Ha ocurrido un error" and no errors key. */
  lemma Defaults()
    ensures Success().code == 200
    ensures Get(Success().body, StrKey("message")) == Some(Str("Operación exitosa"))
    ensures Get(Success().body, StrKey("data")) == Some(Null)
    ensures Error().code == 400
    ensures Get(Error().body, StrKey("message")) == Some(Str("Ha ocurrido un error"))
    ensures Get(Error().body, StrKey("errors")) == None
  {
  }

  /** Falsy error payloads (null, an empty array, "" and "0") leave the `errors` key out. */
  lemma FalsyErrorsOmitted(message: string, code: int)
    ensures Get(Error(message, Null, code).body, StrKey("errors")) == None
    ensures Get(Error(message, Arr([]), code).body, StrKey("errors")) == None
    ensures Get(Error(message, Str(""), code).body, StrKey("errors")) == None
    ensures Get(Error(message, Str("0"), code).body, StrKey("errors")) == None
  {
  }
}

=== FILE: auth_controller.dfy ===
/**
 * The password-reset flow of app/Http/Controllers/AuthController.php as a
 * state machine over the `password_reset_tokens` table, plus the role rule of
 * its `updateProfile`. The random token, the clock and the mail transport are
 * inputs.
 */
module AuthController {
  import opened Wrappers
  import opened Php
  import opened Laravel
  import opened UserController

  /** A `password_reset_tokens` row; `createdAt` is the instant it was issued. */
  datatype TokenRow = TokenRow(token: string, createdAt: nat)

  /** The table keyed by e-mail: `forgotPassword` deletes an address's rows before inserting one. */
  type Tokens = map<string, TokenRow>

  /** Users and tokens after an action, and what it answered. */
  datatype AuthStep = AuthStep(users: UserTable, tokens: Tokens, reply: Outcome<()>)

  /** Tokens older than this many hours are refused by `validateResetToken`. */
  const TOKEN_LIFETIME_HOURS: int := 24

  /** The roles `updateProfile` of this controller accepts. */
  const PROFILE_ROLES: set<string> := {"autor", "administrador"}

  /** `exists:users,email`. */
  predicate EmailExists(rows: seq<User>, email: string) {
    exists j :: 0 <= j < |rows| && rows[j].email == email
  }

  /** `required|email|exists:users,email`. */
  predicate KnownEmail(rows: seq<User>, f: Option<Value>, svc: Services) {
    RequiredEmail(f, svc) && EmailExists(rows, f.value.s)
  }

  /** The row matching both token and e-mail, as the `where(token)->where(email)->first()` query finds it. */
  predicate TokenMatches(tokens: Tokens, email: string, token: string) {
    email in tokens && tokens[email].token == token
  }

  /**
   * `forgotPassword`: 422 for an unknown address; otherwise the address's row
   * becomes the fresh token issued at `now`, whether or not `mailSent` (500
   * when the mail could not be sent).
   */
  function ForgotPassword(users: UserTable, tokens: Tokens, email: Option<Value>, token: string, now: nat, mailSent: bool, svc: Services): (r: AuthStep)
    ensures !KnownEmail(users.rows, email, svc) ==> r == AuthStep(users, tokens, Refused(UNPROCESSABLE))
    ensures KnownEmail(users.rows, email, svc) ==>
      && r.users == users
      && r.tokens.Keys == tokens.Keys + {email.value.s}
      && r.tokens[email.value.s] == TokenRow(token, now)
      && (forall e :: e in tokens && e != email.value.s ==> r.tokens[e] == tokens[e])
      && r.reply == (if mailSent then Done(OK, ()) else Refused(SERVER_ERROR))
  {
    if !KnownEmail(users.rows, email, svc) then AuthStep(users, tokens, Refused(UNPROCESSABLE))
    else
      var tokens' := tokens[Text(email) := TokenRow(token, now)];
      AuthStep(users, tokens', if mailSent then Done(OK, ()) else Refused(SERVER_ERROR))
  }

  /** The fields of `validateResetToken` and `resetPassword`. */
  datatype ResetRequest = ResetRequest(
    email: Option<Value>,
    token: Option<Value>,
    password: Option<Value>,
    passwordConfirmation: Option<Value>)

  /** The rules of `validateResetToken`. */
  predicate ValidTokenCheck(rows: seq<User>, req: ResetRequest, svc: Services) {
    RequiredText(req.token) && KnownEmail(rows, req.email, svc)
  }

  /**
   * `validateResetToken`: 422 for invalid fields, 400 with nothing changed when
   * no row matches, 400 with the address's rows deleted when the row is older
   * than 24 hours, 200 otherwise. `hoursSince` is Carbon's hour difference
   * between now and a row's `created_at`.
   */
  function ValidateResetToken(users: UserTable, tokens: Tokens, req: ResetRequest, hoursSince: nat -> int, svc: Services): (r: AuthStep)
    ensures r.users == users
    ensures !ValidTokenCheck(users.rows, req, svc) ==> r == AuthStep(users, tokens, Refused(UNPROCESSABLE))
    ensures ValidTokenCheck(users.rows, req, svc) ==>
      var email := req.email.value.s;
      && (!TokenMatches(tokens, email, req.token.value.s) ==> r == AuthStep(users, tokens, Refused(BAD_REQUEST)))
      && (TokenMatches(tokens, email, req.token.value.s) ==>
            if hoursSince(tokens[email].createdAt) > TOKEN_LIFETIME_HOURS
            then r == AuthStep(users, tokens - {email}, Refused(BAD_REQUEST))
            else r == AuthStep(users, tokens, Done(OK, ())))
  {
    if !ValidTokenCheck(users.rows, req, svc) then AuthStep(users, tokens, Refused(UNPROCESSABLE))
    else
      var email := Text(req.email);
      if !TokenMatches(tokens, email, Text(req.token)) then AuthStep(users, tokens, Refused(BAD_REQUEST))
      else if hoursSince(tokens[email].createdAt) > TOKEN_LIFETIME_HOURS then
        AuthStep(users, tokens - {email}, Refused(BAD_REQUEST))
      else AuthStep(users, tokens, Done(OK, ()))
  }

  /** The rules of `resetPassword`. */
  predicate ValidReset(rows: seq<User>, req: ResetRequest, svc: Services) {
    && KnownEmail(rows, req.email, svc)
    && RequiredText(req.token)
    && RequiredStringMin(req.password, MIN_PASSWORD)
    && Confirmed(req.password, req.passwordConfirmation)
  }

  /** `User::where('email', ...)->first()`. */
  function FindByEmail(rows: seq<User>, email: string): (r: Option<nat>)
    ensures r.Some? <==> EmailExists(rows, email)
    ensures r.Some? ==> r.value < |rows| && rows[r.value].email == email
  {
    Seqs.FirstIndex(rows, (u: User) => u.email == email)
  }

  /**
   * `resetPassword`: 422 for invalid fields, 400 with nothing changed when no
   * row matches; otherwise the user's hash becomes the new password's and the
   * address's rows are deleted. The row's age is not checked.
   */
  function ResetPassword(users: UserTable, tokens: Tokens, req: ResetRequest, svc: Services): (r: AuthStep)
    ensures !ValidReset(users.rows, req, svc) ==> r == AuthStep(users, tokens, Refused(UNPROCESSABLE))
    ensures ValidReset(users.rows, req, svc) && !TokenMatches(tokens, req.email.value.s, req.token.value.s)
      ==> r == AuthStep(users, tokens, Refused(BAD_REQUEST))
    ensures ValidReset(users.rows, req, svc) && TokenMatches(tokens, req.email.value.s, req.token.value.s) ==>
      var k := FindByEmail(users.rows, req.email.value.s).value;
      && r.reply == Done(OK, ())
      && r.tokens == tokens - {req.email.value.s}
      && r.users.nextId == users.nextId
      && |r.users.rows| == |users.rows|
      && r.users.rows[k] == users.rows[k].(password := svc.hashMake(req.password.value.s))
      && (forall j :: 0 <= j < |users.rows| && j != k ==> r.users.rows[j] == users.rows[j])
  {
    if !ValidReset(users.rows, req, svc) then AuthStep(users, tokens, Refused(UNPROCESSABLE))
    else
      var email := Text(req.email);
      if !TokenMatches(tokens, email, Text(req.token)) then AuthStep(users, tokens, Refused(BAD_REQUEST))
      else
        var k := FindByEmail(users.rows, email).value;
        var u := users.rows[k].(password := svc.hashMake(Text(req.password)));
        AuthStep(UserTable(users.rows[k := u], users.nextId), tokens - {email}, Done(OK, ()))
  }

  /** `updateProfile` of this controller: the profile update with roles limited to autor and administrador. */
  function UpdateOwnProfile(t: UserTable, authId: Option<int>, req: ProfileRequest, svc: Services): (r: UserStep<User>)
    ensures r.reply.Done? ==> r.reply.value.rol in PROFILE_ROLES
    ensures req.rol == Some(Str("cliente")) ==> r.table == t && r.reply.Refused?
  {
    UpdateProfile(t, authId, req, PROFILE_ROLES, svc)
  }

  // ---------------------------------------------------------------------------
  // Properties of the flow

  /** A token issued and then validated within its lifetime is accepted and left in place. */
  lemma IssueThenValidate(users: UserTable, tokens: Tokens, req: ResetRequest, token: string, now: nat, mailSent: bool, hoursSince: nat -> int, svc: Services)
    requires ValidTokenCheck(users.rows, req, svc)
    requires req.token == Some(Str(token))
    requires hoursSince(now) <= TOKEN_LIFETIME_HOURS
    ensures var issued := ForgotPassword(users, tokens, req.email, token, now, mailSent, svc);
      ValidateResetToken(users, issued.tokens, req, hoursSince, svc) == AuthStep(users, issued.tokens, Done(OK, ()))
  {
  }

  /** A newer request replaces the older token: the previous one no longer matches. */
  lemma ReissueInvalidatesOld(users: UserTable, tokens: Tokens, email: Option<Value>, token: string, now: nat, mailSent: bool, svc: Services)
    requires KnownEmail(users.rows, email, svc)
    requires email.value.s in tokens && tokens[email.value.s].token != token
    ensures var issued := ForgotPassword(users, tokens, email, token, now, mailSent, svc);
      && !TokenMatches(issued.tokens, email.value.s, tokens[email.value.s].token)
      && TokenMatches(issued.tokens, email.value.s, token)
  {
  }

  /** A reset consumes the token: replaying the same request then fails with 400. */
  lemma ResetIsSingleUse(users: UserTable, tokens: Tokens, req: ResetRequest, svc: Services)
    requires ValidReset(users.rows, req, svc)
    requires TokenMatches(tokens, req.email.value.s, req.token.value.s)
    ensures var first := ResetPassword(users, tokens, req, svc);
      first.reply.Done? && ResetPassword(first.users, first.tokens, req, svc).reply == Refused(BAD_REQUEST)
  {
    var first := ResetPassword(users, tokens, req, svc);
    var k := FindByEmail(users.rows, req.email.value.s).value;
    var j :| 0 <= j < |users.rows| && users.rows[j].email == req.email.value.s;
    if j == k {
      assert first.users.rows[k].email == req.email.value.s;
    } else {
      assert first.users.rows[j] == users.rows[j];
    }
    assert KnownEmail(first.users.rows, req.email, svc);
  }

  /** `resetPassword` has no age check: a token `validateResetToken` refuses as expired still resets the password. */
  lemma ExpiredTokenStillResets(users: UserTable, tokens: Tokens, req: ResetRequest, hoursSince: nat -> int, svc: Services)
    requires ValidReset(users.rows, req, svc)
    requires TokenMatches(tokens, req.email.value.s, req.token.value.s)
    requires hoursSince(tokens[req.email.value.s].createdAt) > TOKEN_LIFETIME_HOURS
    ensures ValidateResetToken(users, tokens, req, hoursSince, svc).reply == Refused(BAD_REQUEST)
    ensures ResetPassword(users, tokens, req, svc).reply == Done(OK, ())
  {
  }

  /** After a reset, the new password signs in. */
  lemma ResetTakesEffect(users: UserTable, tokens: Tokens, req: ResetRequest, svc: Services)
    requires SoundHashing(svc)
    requires ValidReset(users.rows, req, svc)
    requires TokenMatches(tokens, req.email.value.s, req.token.value.s)
    ensures var r := ResetPassword(users, tokens, req, svc);
      var k := FindByEmail(users.rows, req.email.value.s).value;
      svc.hashCheck(req.password.value.s, r.users.rows[k].password)
  {
  }

  /** `cliente` is accepted by the user controller's profile update but not by this one. */
  lemma ProfileRolesDiffer(t: UserTable, authId: Option<int>, req: ProfileRequest, svc: Services)
    requires req.rol == Some(Str("cliente"))
    requires authId.Some? && FindUser(t.rows, authId.value).Some?
    requires RequiredString(req.name, MAX_NAME) && RequiredEmail(req.email, svc)
    requires EmailFree(t.rows, req.email.value.s, authId)
    ensures ProfileUpdate(t, authId, req, svc).reply.Done?
    ensures UpdateOwnProfile(t, authId, req, svc) == UserStep(t, Refused(UNPROCESSABLE))
  {
  }
}

=== FILE: banner.dfy ===
/**
 * A carousel banner (app/Models/Banner.php): its columns with the `activo`
 * and `orden` casts, and the two query scopes.
 */
module Banner {
  import opened Wrappers
  import opened Php
  import opened Seqs
  import opened Sorting

  /**
   * One banner row. The casts make `activo` a boolean and `orden` an integer,
   * which the field types state.
   */
  datatype Banner = Banner(
    id: nat,
    titulo: string,
    descripcion: Option<string>,
    imagen: string,
    textoBoton: string,
    enlaceBoton: string,
    orden: int,
    activo: bool)

  function IsActive(b: Banner): bool {
    b.activo
  }

  function Orden(b: Banner): int {
    b.orden
  }

  /** The `boolean` cast of a stored value: PHP truthiness. */
  function CastActivo(v: Value): bool {
    Truthy(v)
  }

  /** `scopeActivos`: exactly the active banners, in their original order. */
  function Activos(bs: seq<Banner>): (r: seq<Banner>)
    ensures forall j :: 0 <= j < |r| ==> r[j].activo
    ensures forall b :: multiset(r)[b] == if b.activo then multiset(bs)[b] else 0
  {
    Filter(bs, IsActive)
  }

  /** `scopeOrdenados`: a permutation of the banners, non-decreasing in `orden`. */
  function Ordenados(bs: seq<Banner>): (r: seq<Banner>)
    ensures multiset(r) == multiset(bs)
    ensures forall i, j :: 0 <= i < j < |r| ==> r[i].orden <= r[j].orden
  {
    var r := SortBy(bs, Orden);
    assert forall i, j :: 0 <= i < j < |r| ==> Orden(r[i]) <= Orden(r[j]);
    r
  }

  /** The values the `boolean` validation rule accepts cast as they read: 1, "1" and true are active. */
  lemma ActivoCast()
    ensures CastActivo(Bool(true)) && CastActivo(Int(1)) && CastActivo(Str("1"))
    ensures !CastActivo(Bool(false)) && !CastActivo(Int(0)) && !CastActivo(Str("0"))
  {
  }
}

=== FILE: banner_controller.dfy ===
/**
 * The banner API (app/Http/Controllers/Api/BannerController.php) as
 * transitions over the `banners` table and the set of public files.
 */
module BannerController {
  import opened Wrappers
  import opened Php
  import opened Seqs
  import opened Laravel
  import opened Banner

  /** The table: its rows and the next auto-increment id. */
  datatype BannerTable = BannerTable(rows: seq<Banner>, nextId: nat)

  /** Ids are unique and below the auto-increment counter. */
  ghost predicate ValidTable(t: BannerTable) {
    && (forall i, j :: 0 <= i < j < |t.rows| ==> t.rows[i].id != t.rows[j].id)
    && (forall j :: 0 <= j < |t.rows| ==> t.rows[j].id < t.nextId)
  }

  /** The state after an action and what it answered. */
  datatype BannerStep<T> = BannerStep(table: BannerTable, files: set<string>, reply: Outcome<T>)

  const MAX_TITULO: nat := 150
  const MAX_TEXTO_BOTON: nat := 50

  /** `Banner::find($id)`. */
  function FindBanner(rows: seq<Banner>, id: int): Option<nat> {
    FirstIndex(rows, (b: Banner) => b.id == id)
  }

  /** `index`: the active banners, ordered by `orden`. */
  function Index(t: BannerTable): (r: seq<Banner>)
    ensures forall j :: 0 <= j < |r| ==> r[j].activo
    ensures forall b :: multiset(r)[b] == if b.activo then multiset(t.rows)[b] else 0
    ensures forall i, j :: 0 <= i < j < |r| ==> r[i].orden <= r[j].orden
  {
    var active := Activos(t.rows);
    var r := Ordenados(active);
    PermutationKeepsActive(active, r);
    r
  }

  /** A permutation of active banners holds only active banners. */
  lemma PermutationKeepsActive(a: seq<Banner>, b: seq<Banner>)
    requires forall j :: 0 <= j < |a| ==> a[j].activo
    requires multiset(b) == multiset(a)
    ensures forall j :: 0 <= j < |b| ==> b[j].activo
  {
    forall j | 0 <= j < |b|
      ensures b[j].activo
    {
      assert b[j] in multiset(a);
      var i :| 0 <= i < |a| && a[i] == b[j];
    }
  }

  /** `admin`: every banner, active or not, ordered by `orden`. */
  function Admin(t: BannerTable): (r: seq<Banner>)
    ensures multiset(r) == multiset(t.rows)
    ensures forall i, j :: 0 <= i < j < |r| ==> r[i].orden <= r[j].orden
  {
    Ordenados(t.rows)
  }

  /** `show`: the banner with that id, or 404. */
  function Show(t: BannerTable, id: int): (r: Outcome<Banner>)
    ensures r.Refused? <==> forall j :: 0 <= j < |t.rows| ==> t.rows[j].id != id
    ensures r.Refused? ==> r.code == NOT_FOUND
    ensures r.Done? ==> r.code == OK && r.value in t.rows && r.value.id == id
  {
    match FindBanner(t.rows, id)
    case None => Refused(NOT_FOUND)
    case Some(k) => Done(OK, t.rows[k])
  }

  /** The fields of a store or update request; `None` is an absent key. */
  datatype BannerRequest = BannerRequest(
    titulo: Option<Value>,
    descripcion: Option<Value>,
    imagen: Option<Upload>,
    textoBoton: Option<Value>,
    enlaceBoton: Option<Value>,
    orden: Option<Value>,
    activo: Option<Value>)

  /** The rules of `store`. */
  predicate ValidStore(req: BannerRequest) {
    && RequiredString(req.titulo, MAX_TITULO)
    && NullableString(req.descripcion)
    && req.imagen.Some? && BannerImage(req.imagen.value)
    && RequiredString(req.textoBoton, MAX_TEXTO_BOTON)
    && RequiredText(req.enlaceBoton)
    && RequiredIntegerMin(req.orden, 0)
    && SometimesBoolean(req.activo)
  }

  /** The rules of `update`: the same, each checked only when its key is present. */
  predicate ValidUpdate(req: BannerRequest) {
    && SometimesRequiredString(req.titulo, MAX_TITULO)
    && NullableString(req.descripcion)
    && (req.imagen.Some? ==> BannerImage(req.imagen.value))
    && SometimesRequiredString(req.textoBoton, MAX_TEXTO_BOTON)
    && (req.enlaceBoton.None? || RequiredText(req.enlaceBoton))
    && (req.orden.None? || RequiredIntegerMin(req.orden, 0))
    && SometimesBoolean(req.activo)
  }

  /** Where an uploaded banner image is moved: `assets/banners/<time>_<name>`. */
  function ImagePath(t: nat, originalName: string): string {
    "assets/banners/" + NatToString(t) + "_" + originalName
  }

  /** A nullable string field as a column value. */
  function NullableText(v: Value): Option<string> {
    if v.Str? then Some(v.s) else None
  }

  /** `store`: after validation, a new row with the next id; `activo` defaults to true. */
  function Store(t: BannerTable, files: set<string>, req: BannerRequest, now: nat): (r: BannerStep<Banner>)
    ensures !ValidStore(req) ==> r == BannerStep(t, files, Refused(UNPROCESSABLE))
    ensures ValidStore(req) ==>
      && r.reply.Done? && r.reply.code == CREATED
      && var b := r.reply.value;
      && r.table == BannerTable(t.rows + [b], t.nextId + 1)
      && b.id == t.nextId
      && b.titulo == Text(req.titulo) && |b.titulo| <= MAX_TITULO
      && b.textoBoton == Text(req.textoBoton) && |b.textoBoton| <= MAX_TEXTO_BOTON
      && b.enlaceBoton == Text(req.enlaceBoton)
      && b.descripcion == (if req.descripcion.Some? then NullableText(req.descripcion.value) else None)
      && b.orden == IntegerValue(req.orden.value) && b.orden >= 0
      && b.activo == (req.activo.None? || CastActivo(req.activo.value))
      && b.imagen == ImagePath(now, req.imagen.value.originalName)
      && r.files == files + {b.imagen}
  {
    if !ValidStore(req) then BannerStep(t, files, Refused(UNPROCESSABLE))
    else
      var path := ImagePath(now, req.imagen.value.originalName);
      var b := Banner(
        t.nextId,
        Text(req.titulo),
        if req.descripcion.Some? then NullableText(req.descripcion.value) else None,
        path,
        Text(req.textoBoton),
        Text(req.enlaceBoton),
        IntegerValue(req.orden.value),
        req.activo.None? || CastActivo(req.activo.value));
      BannerStep(BannerTable(t.rows + [b], t.nextId + 1), files + {path}, Done(CREATED, b))
  }

  /** The row after a partial update: each present field replaces the column, the others stay. */
  function Merge(b: Banner, req: BannerRequest, imagePath: string): Banner
    requires ValidUpdate(req)
  {
    Banner(
      b.id,
      if req.titulo.Some? then Text(req.titulo) else b.titulo,
      if req.descripcion.Some? then NullableText(req.descripcion.value) else b.descripcion,
      if req.imagen.Some? then imagePath else b.imagen,
      if req.textoBoton.Some? then Text(req.textoBoton) else b.textoBoton,
      if req.enlaceBoton.Some? then Text(req.enlaceBoton) else b.enlaceBoton,
      if req.orden.Some? then IntegerValue(req.orden.value) else b.orden,
      if req.activo.Some? then CastActivo(req.activo.value) else b.activo)
  }

  /** `update`: 404 before validation, 422 for an invalid field, otherwise a partial update. */
  function Update(t: BannerTable, files: set<string>, id: int, req: BannerRequest, now: nat): (r: BannerStep<Banner>)
    ensures FindBanner(t.rows, id).None? ==> r == BannerStep(t, files, Refused(NOT_FOUND))
    ensures FindBanner(t.rows, id).Some? && !ValidUpdate(req) ==> r == BannerStep(t, files, Refused(UNPROCESSABLE))
    ensures FindBanner(t.rows, id).Some? && ValidUpdate(req) ==> r.reply.Done?
    ensures r.reply.Refused? ==> r.table == t && r.files == files
    ensures r.reply.Done? ==>
      var k := FindBanner(t.rows, id).value;
      var before := t.rows[k];
      var after := r.reply.value;
      && ValidUpdate(req)
      && r.reply.code == OK
      && r.table.nextId == t.nextId
      && |r.table.rows| == |t.rows|
      && (forall j :: 0 <= j < |t.rows| && j != k ==> r.table.rows[j] == t.rows[j])
      && r.table.rows[k] == after
      && after.id == before.id
      && after.titulo == (if req.titulo.Some? then Text(req.titulo) else before.titulo)
      && after.descripcion == (if req.descripcion.Some? then NullableText(req.descripcion.value) else before.descripcion)
      && after.textoBoton == (if req.textoBoton.Some? then Text(req.textoBoton) else before.textoBoton)
      && after.enlaceBoton == (if req.enlaceBoton.Some? then Text(req.enlaceBoton) else before.enlaceBoton)
      && after.orden == (if req.orden.Some? then IntegerValue(req.orden.value) else before.orden)
      && after.activo == (if req.activo.Some? then CastActivo(req.activo.value) else before.activo)
      && (req.titulo.Some? ==> |after.titulo| <= MAX_TITULO)
      && (req.orden.Some? ==> after.orden >= 0)
      && (req.imagen.None? ==> after.imagen == before.imagen && r.files == files)
      && (req.imagen.Some? ==>
            && after.imagen == ImagePath(now, req.imagen.value.originalName)
            && after.imagen in r.files
            && forall p :: p != after.imagen ==>
                 (p in r.files <==> p in files && !(p == before.imagen && StringToBool(p))))
  {
    match FindBanner(t.rows, id)
    case None => BannerStep(t, files, Refused(NOT_FOUND))
    case Some(k) =>
      if !ValidUpdate(req) then BannerStep(t, files, Refused(UNPROCESSABLE))
      else
        var before := t.rows[k];
        var path := if req.imagen.Some? then ImagePath(now, req.imagen.value.originalName) else before.imagen;
        var files' :=
          if req.imagen.None? then files
          else (if StringToBool(before.imagen) && before.imagen in files then files - {before.imagen} else files) + {path};
        var after := Merge(before, req, path);
        BannerStep(BannerTable(t.rows[k := after], t.nextId), files', Done(OK, after))
  }

  /** `destroy`: 404 for an unknown id, otherwise exactly that row is removed (its image file stays). */
  function Destroy(t: BannerTable, files: set<string>, id: int): (r: BannerStep<()>)
    ensures FindBanner(t.rows, id).None? ==> r == BannerStep(t, files, Refused(NOT_FOUND))
    ensures FindBanner(t.rows, id).Some? ==>
      var k := FindBanner(t.rows, id).value;
      && r.table == BannerTable(t.rows[..k] + t.rows[k + 1..], t.nextId)
      && r.files == files
      && r.reply == Done(OK, ())
  {
    match FindBanner(t.rows, id)
    case None => BannerStep(t, files, Refused(NOT_FOUND))
    case Some(k) => BannerStep(BannerTable(t.rows[..k] + t.rows[k + 1..], t.nextId), files, Done(OK, ()))
  }

  // ---------------------------------------------------------------------------
  // Properties across actions

  /** A stored banner is found again by `show`, and every action keeps the table valid. */
  lemma StoreThenShow(t: BannerTable, files: set<string>, req: BannerRequest, now: nat)
    requires ValidTable(t)
    requires ValidStore(req)
    ensures var r := Store(t, files, req, now);
      ValidTable(r.table) && Show(r.table, r.reply.value.id) == Done(OK, r.reply.value)
  {
    var r := Store(t, files, req, now);
    var b := r.reply.value;
    var rows := r.table.rows;
    assert rows[|rows| - 1] == b;
    assert forall j :: 0 <= j < |t.rows| ==> rows[j] == t.rows[j];
    match FindBanner(rows, b.id)
    case Some(k) =>
      assert rows[k].id == b.id;
      assert k == |rows| - 1;
    case None =>
      assert false;
  }

  /** After `destroy`, the banner is gone and every other banner is still there. */
  lemma DestroyThenShow(t: BannerTable, files: set<string>, id: int)
    requires ValidTable(t)
    ensures var r := Destroy(t, files, id);
      && ValidTable(r.table)
      && Show(r.table, id).Refused?
      && forall b :: b in t.rows && b.id != id ==> b in r.table.rows
  {
    match FindBanner(t.rows, id)
    case None =>
    case Some(k) =>
      var rows := t.rows[..k] + t.rows[k + 1..];
      RemoveAt(t.rows, k);
      assert Destroy(t, files, id).table.rows == rows;
      assert forall j :: 0 <= j < |rows| ==> rows[j].id != id by {
        forall j | 0 <= j < |rows|
          ensures rows[j].id != id
        {
          if j < k {
            assert rows[j] == t.rows[j];
          } else {
            assert rows[j] == t.rows[j + 1];
          }
        }
      }
  }

  /** Removing position `k` keeps every other element, in order. */
  lemma RemoveAt(s: seq<Banner>, k: nat)
    requires k < |s|
    ensures var r := s[..k] + s[k + 1..];
      && |r| == |s| - 1
      && (forall j :: 0 <= j < k ==> r[j] == s[j])
      && (forall j :: k <= j < |r| ==> r[j] == s[j + 1])
      && (forall j :: 0 <= j < |s| && j != k ==> s[j] in r)
  {
    var r := s[..k] + s[k + 1..];
    forall j | 0 <= j < |s| && j != k
      ensures s[j] in r
    {
      if j < k {
        assert r[j] == s[j];
      } else {
        assert r[j - 1] == s[j];
      }
    }
  }

  /** An update keeps the table valid. */
  lemma UpdateKeepsTableValid(t: BannerTable, files: set<string>, id: int, req: BannerRequest, now: nat)
    requires ValidTable(t)
    ensures ValidTable(Update(t, files, id, req, now).table)
  {
  }

  /** A banner stored without `activo` is active. */
  lemma ActiveByDefault(t: BannerTable, files: set<string>, req: BannerRequest, now: nat)
    requires ValidStore(req) && req.activo.None?
    ensures Store(t, files, req, now).reply.value.activo
    ensures Store(t, files, req, now).reply.value in Index(Store(t, files, req, now).table)
  {
    var r := Store(t, files, req, now);
    var b := r.reply.value;
    assert b in r.table.rows;
    assert multiset(Index(r.table))[b] == multiset(r.table.rows)[b];
  }

  /** A title over 150 characters is refused and nothing is inserted. */
  lemma LongTitleRejected(t: BannerTable, files: set<string>, req: BannerRequest, now: nat)
    requires req.titulo.Some? && req.titulo.value.Str? && |req.titulo.value.s| > MAX_TITULO
    ensures Store(t, files, req, now) == BannerStep(t, files, Refused(UNPROCESSABLE))
  {
  }

  /** An `orden` outside PHP's 64-bit range, as a number or as its decimal text, is refused and nothing is inserted. */
  lemma OrdenBeyondIntRangeRejected(t: BannerTable, files: set<string>, req: BannerRequest, now: nat, i: int)
    requires !InIntRange(i)
    requires req.orden == Some(Int(i)) || req.orden == Some(Str(IntToString(i)))
    ensures Store(t, files, req, now) == BannerStep(t, files, Refused(UNPROCESSABLE))
  {
    LeadingIntegerOfRendering(i, "");
    assert IntToString(i) + "" == IntToString(i);
  }

  /** A negative or non-integer `orden` is refused and nothing is inserted. */
  lemma BadOrdenRejected(t: BannerTable, files: set<string>, req: BannerRequest, now: nat)
    requires req.orden.Some?
    requires !IsInteger(req.orden.value) || IntegerValue(req.orden.value) < 0
    ensures Store(t, files, req, now) == BannerStep(t, files, Refused(UNPROCESSABLE))
  {
  }
}

=== FILE: configuracion_resource.dfy ===
/**
 * The JSON projection of a configuration row
 * (app/Http/Resources/ConfiguracionResource.php): the raw columns plus the
 * decoded value, computed by the resource's own copy of the decoder.
 */
module ConfiguracionResource {
  import opened Wrappers
  import opened Php
  import Configuraciones

  /** The resource's copy of `procesarValorSegunTipo`, written as a `switch` with a default. */
  function Decode(tipo: string, valor: Option<string>, parse: Configuraciones.JsonParser): (r: Value)
    ensures r == Configuraciones.Decode(tipo, valor, parse)
  {
    match tipo
    case "json" => Configuraciones.JsonDecode(valor, parse)
    case "booleano" => Bool(Truthy(FromNullable(valor)))
    case "numero" => Int(NullableToInt(valor))
    case _ => FromNullable(valor)
  }

  /** The resource's decoder and the model's decoder agree on every input. */
  lemma DecodersAgree(tipo: string, valor: Option<string>, parse: Configuraciones.JsonParser)
    ensures Decode(tipo, valor, parse) == Configuraciones.Decode(tipo, valor, parse)
  {
  }

  /** The nine keys of the projection, in order. */
  const FIELDS: seq<Key> := [
    StrKey("id"), StrKey("clave"), StrKey("valor"), StrKey("valor_procesado"), StrKey("tipo"),
    StrKey("descripcion"), StrKey("grupo"), StrKey("created_at"), StrKey("updated_at")]

  lemma FieldsDistinct()
    ensures forall i, j :: 0 <= i < j < |FIELDS| ==> FIELDS[i] != FIELDS[j]
  {
  }

  /** The nine pairs of `toArray`, in order. */
  function Projection(e: Configuraciones.Entry, parse: Configuraciones.JsonParser): (r: seq<(Key, Value)>)
    ensures Keys(r) == FIELDS
  {
    [ (StrKey("id"), Int(e.id)),
      (StrKey("clave"), Str(e.clave)),
      (StrKey("valor"), FromNullable(e.valor)),
      (StrKey("valor_procesado"), Decode(e.tipo, e.valor, parse)),
      (StrKey("tipo"), Str(e.tipo)),
      (StrKey("descripcion"), FromNullable(e.descripcion)),
      (StrKey("grupo"), Str(e.grupo)),
      (StrKey("created_at"), FromNullable(e.createdAt)),
      (StrKey("updated_at"), FromNullable(e.updatedAt)) ]
  }

  /** Since the keys are distinct, looking up the k-th field gives the k-th value. */
  lemma ProjectionLookups(e: Configuraciones.Entry, parse: Configuraciones.JsonParser)
    ensures forall k :: 0 <= k < |FIELDS| ==> Get(Projection(e, parse), FIELDS[k]) == Some(Projection(e, parse)[k].1)
  {
    var r := Projection(e, parse);
    FieldsDistinct();
    assert forall j :: 0 <= j < |r| ==> r[j].0 == Keys(r)[j];
    GetDistinctKeys(r);
  }

  /**
   * `toArray`: exactly the nine keys; the columns are copied verbatim, the raw
   * `valor` is kept next to the decoded `valor_procesado`.
   */
  function ToArray(e: Configuraciones.Entry, parse: Configuraciones.JsonParser): (r: seq<(Key, Value)>)
    ensures Keys(r) == FIELDS
    ensures Get(r, StrKey("id")) == Some(Int(e.id))
    ensures Get(r, StrKey("clave")) == Some(Str(e.clave))
    ensures Get(r, StrKey("valor")) == Some(FromNullable(e.valor))
    ensures Get(r, StrKey("valor_procesado")) == Some(Configuraciones.Decode(e.tipo, e.valor, parse))
    ensures Get(r, StrKey("tipo")) == Some(Str(e.tipo))
    ensures Get(r, StrKey("descripcion")) == Some(FromNullable(e.descripcion))
    ensures Get(r, StrKey("grupo")) == Some(Str(e.grupo))
    ensures Get(r, StrKey("created_at")) == Some(FromNullable(e.createdAt))
    ensures Get(r, StrKey("updated_at")) == Some(FromNullable(e.updatedAt))
  {
    var r := Projection(e, parse);
    ProjectionLookups(e, parse);
    DecodersAgree(e.tipo, e.valor, parse);
    assert FIELDS[0] == StrKey("id") && FIELDS[1] == StrKey("clave") && FIELDS[2] == StrKey("valor");
    assert FIELDS[3] == StrKey("valor_procesado") && FIELDS[4] == StrKey("tipo") && FIELDS[5] == StrKey("descripcion");
    assert FIELDS[6] == StrKey("grupo") && FIELDS[7] == StrKey("created_at") && FIELDS[8] == StrKey("updated_at");
    r
  }

  /** `ConfiguracionResource::collection`: the projection of each row, in order. */
  function Collection(es: seq<Configuraciones.Entry>, parse: Configuraciones.JsonParser): (r: seq<seq<(Key, Value)>>)
    ensures |r| == |es|
    ensures forall j :: 0 <= j < |r| ==> r[j] == ToArray(es[j], parse)
  {
    seq(|es|, j requires 0 <= j < |es| => ToArray(es[j], parse))
  }
}

=== FILE: configuraciones.dfy ===
/**
 * The configuration entry (app/Models/Configuraciones.php): a row of the
 * `configuraciones` table, the decoder that turns its stored string into a
 * typed value according to its `tipo`, and the two static queries.
 */
module Configuraciones {
  import opened Wrappers
  import opened Php
  import opened Seqs

  /**
   * `json_decode($text, true)`, kept abstract: the decoded value, or `None`
   * when the text is not valid JSON (RFC 8259).
   */
  type JsonParser = string -> Option<Value>

  /** What any RFC 8259 parser answers on the empty text and on the three literal names. */
  ghost predicate ParsesLiterals(parse: JsonParser) {
    && parse("") == None
    && parse("null") == Some(Null)
    && parse("true") == Some(Bool(true))
    && parse("false") == Some(Bool(false))
  }

  /** One configuration row; `valor` and `descripcion` are nullable columns. */
  datatype Entry = Entry(
    id: nat,
    clave: string,
    valor: Option<string>,
    tipo: string,
    descripcion: Option<string>,
    grupo: string,
    createdAt: Option<string>,
    updatedAt: Option<string>)

  /** The primary key is unique. */
  ghost predicate UniqueIds(store: seq<Entry>) {
    forall i, j :: 0 <= i < j < |store| ==> store[i].id != store[j].id
  }

  const TIPO_JSON: string := "json"
  const TIPO_BOOLEANO: string := "booleano"
  const TIPO_NUMERO: string := "numero"
  const TIPO_IMAGEN: string := "imagen"

  /** `json_decode($valor, true)`: a null column is passed on as the empty text; invalid text yields null. */
  function JsonDecode(valor: Option<string>, parse: JsonParser): Value {
    match parse(valor.GetOr(""))
    case None => Null
    case Some(v) => v
  }

  /**
   * `procesarValorSegunTipo`: the typed value of a stored `valor`. Total: every
   * (tipo, valor) pair decodes, and an unknown `tipo` returns the raw column.
   */
  function Decode(tipo: string, valor: Option<string>, parse: JsonParser): (r: Value)
    ensures tipo == TIPO_JSON ==>
      (r == Null <==> parse(valor.GetOr("")) == None || parse(valor.GetOr("")) == Some(Null))
    ensures tipo == TIPO_JSON && parse(valor.GetOr("")).Some? ==> r == parse(valor.GetOr("")).value
    ensures tipo == TIPO_BOOLEANO ==> r.Bool? && (r.b <==> valor.Some? && valor.value != "" && valor.value != "0")
    ensures tipo == TIPO_NUMERO ==> r.Int? && r.i == NullableToInt(valor)
    ensures tipo != TIPO_JSON && tipo != TIPO_BOOLEANO && tipo != TIPO_NUMERO ==>
      (r == Null <==> valor.None?) && (valor.Some? ==> r == Str(valor.value))
  {
    if tipo == TIPO_JSON then JsonDecode(valor, parse)
    else if tipo == TIPO_BOOLEANO then Bool(Truthy(FromNullable(valor)))
    else if tipo == TIPO_NUMERO then Int(NullableToInt(valor))
    else FromNullable(valor)
  }

  /** The first row with the given `clave`, as `where('clave', $clave)->first()` finds it. */
  function FindByClave(store: seq<Entry>, clave: string): Option<nat> {
    FirstIndex(store, (e: Entry) => e.clave == clave)
  }

  /** `obtenerValor`: the decoded value of the first row with `clave`, or the caller's default. */
  function ObtenerValor(store: seq<Entry>, clave: string, default: Value, parse: JsonParser): (r: Value)
    ensures (forall j :: 0 <= j < |store| ==> store[j].clave != clave) ==> r == default
    ensures forall j :: 0 <= j < |store| && store[j].clave == clave
                     && (forall i :: 0 <= i < j ==> store[i].clave != clave)
                     ==> r == Decode(store[j].tipo, store[j].valor, parse)
  {
    match FindByClave(store, clave)
    case None => default
    case Some(j) => Decode(store[j].tipo, store[j].valor, parse)
  }

  /** The condition `where('grupo', $grupo)` tests. */
  function GroupTest(grupo: string): Entry -> bool {
    (e: Entry) => e.grupo == grupo
  }

  /** The rows of one group, in table order (`where('grupo', $grupo)->get()`). */
  function InGroup(store: seq<Entry>, grupo: string): (r: seq<Entry>)
    ensures forall j :: 0 <= j < |r| ==> r[j].grupo == grupo
  {
    Filter(store, GroupTest(grupo))
  }

  /** A row annotated with its decoded value (`$configuracion->valor_procesado = ...`). */
  datatype Processed = Processed(entry: Entry, valorProcesado: Value)

  /** `obtenerGrupo`: the rows of a group, each annotated with its decoded value and otherwise untouched. */
  function ObtenerGrupo(store: seq<Entry>, grupo: string, parse: JsonParser): (r: seq<Processed>)
    ensures |r| == |InGroup(store, grupo)|
    ensures forall j :: 0 <= j < |r| ==> r[j].entry == InGroup(store, grupo)[j]
    ensures forall j :: 0 <= j < |r| ==>
      r[j].entry.grupo == grupo &&
      r[j].valorProcesado == Decode(r[j].entry.tipo, r[j].entry.valor, parse)
  {
    var rows := InGroup(store, grupo);
    seq(|rows|, j requires 0 <= j < |rows| => Processed(rows[j], Decode(rows[j].tipo, rows[j].valor, parse)))
  }

  // ---------------------------------------------------------------------------
  // Properties of the decoder

  /** Only the empty string, "0" and null decode to false; "false", "0.0" and " 0" are true. */
  lemma BooleanDecoding(parse: JsonParser)
    ensures Decode(TIPO_BOOLEANO, Some("0"), parse) == Bool(false)
    ensures Decode(TIPO_BOOLEANO, Some(""), parse) == Bool(false)
    ensures Decode(TIPO_BOOLEANO, None, parse) == Bool(false)
    ensures Decode(TIPO_BOOLEANO, Some("1"), parse) == Bool(true)
    ensures Decode(TIPO_BOOLEANO, Some("false"), parse) == Bool(true)
    ensures Decode(TIPO_BOOLEANO, Some("0.0"), parse) == Bool(true)
    ensures Decode(TIPO_BOOLEANO, Some(" 0"), parse) == Bool(true)
  {
  }

  /** Storing a boolean the way PHP renders it ("1" / "") and decoding it gives it back. */
  lemma BooleanRoundTrip(b: bool, parse: JsonParser)
    ensures Decode(TIPO_BOOLEANO, Some(if b then "1" else ""), parse) == Bool(b)
    ensures Decode(TIPO_BOOLEANO, Some(if b then "1" else "0"), parse) == Bool(b)
  {
  }

  /** A stored integer in PHP's range decodes to itself, also when text that cannot continue a number follows it. */
  lemma NumberRoundTrip(i: int, rest: string, parse: JsonParser)
    requires InIntRange(i)
    requires EndsNumber(rest)
    ensures Decode(TIPO_NUMERO, Some(IntToString(i) + rest), parse) == Int(i)
  {
    IntCastOfRendering(i, rest);
  }

  /** A stored integer beyond PHP's range decodes to the nearest bound. */
  lemma NumberSaturates(i: int, rest: string, parse: JsonParser)
    requires !InIntRange(i)
    requires EndsNumber(rest)
    ensures Decode(TIPO_NUMERO, Some(IntToString(i) + rest), parse) == Int(if i > 0 then PHP_INT_MAX else PHP_INT_MIN)
  {
    IntCastSaturates(i, rest);
  }

  /** "10" decodes to 10 and "12abc" to 12. */
  lemma NumberDecodingDigits(parse: JsonParser)
    ensures Decode(TIPO_NUMERO, Some("10"), parse) == Int(10)
    ensures Decode(TIPO_NUMERO, Some("12abc"), parse) == Int(12)
  {
    CastOfTen();
    CastOfTwelveAbc();
  }

  /** "abc", the empty string and null decode to 0. */
  lemma NumberDecodingNonNumeric(parse: JsonParser)
    ensures Decode(TIPO_NUMERO, Some("abc"), parse) == Int(0)
    ensures Decode(TIPO_NUMERO, Some(""), parse) == Int(0)
    ensures Decode(TIPO_NUMERO, None, parse) == Int(0)
  {
    IntCastOfNonNumeric("abc");
    IntCastOfNonNumeric("");
  }

  /** Invalid JSON decodes to null, exactly like the text "null", and so does a null column. */
  lemma JsonFailureIsNull(s: string, parse: JsonParser)
    requires ParsesLiterals(parse)
    requires parse(s) == None
    ensures Decode(TIPO_JSON, Some(s), parse) == Null
    ensures Decode(TIPO_JSON, Some("null"), parse) == Null
    ensures Decode(TIPO_JSON, None, parse) == Null
  {
  }

  /** Text, colour, image and unknown types return the stored column unchanged. */
  lemma IdentityTypes(valor: Option<string>, parse: JsonParser)
    ensures Decode("texto", valor, parse) == FromNullable(valor)
    ensures Decode("color", valor, parse) == FromNullable(valor)
    ensures Decode(TIPO_IMAGEN, valor, parse) == FromNullable(valor)
    ensures Decode("", valor, parse) == FromNullable(valor)
  {
  }

  /** The rows `obtenerGrupo` returns are exactly the table's rows of that group. */
  lemma ObtenerGrupoExact(store: seq<Entry>, grupo: string, parse: JsonParser, e: Entry)
    ensures (exists j :: 0 <= j < |ObtenerGrupo(store, grupo, parse)| && ObtenerGrupo(store, grupo, parse)[j].entry == e)
        <==> e in store && e.grupo == grupo
  {
    var r := ObtenerGrupo(store, grupo, parse);
    var rows := InGroup(store, grupo);
    FilterMembership(store, GroupTest(grupo), e);
    if e in rows {
      var j :| 0 <= j < |rows| && rows[j] == e;
      assert r[j].entry == e;
    }
  }

  /** `obtenerValor` on the seeded entries `modo_mantenimiento` ("0") and `items_por_pagina` ("10"), and on a missing key. */
  lemma SeederExamples(parse: JsonParser)
    ensures ObtenerValor([Entry(1, "modo_mantenimiento", Some("0"), TIPO_BOOLEANO, None, "general", None, None)],
                         "modo_mantenimiento", Null, parse) == Bool(false)
    ensures ObtenerValor([Entry(2, "items_por_pagina", Some("10"), TIPO_NUMERO, None, "general", None, None)],
                         "items_por_pagina", Null, parse) == Int(10)
    ensures ObtenerValor([], "items_por_pagina", Int(20), parse) == Int(20)
  {
    NumberDecodingDigits(parse);
  }
}

=== FILE: configuraciones_controller.dfy ===
/**
 * The configuration API (app/Http/Controllers/Api/ConfiguracionesController.php)
 * as transitions over the table and the set of files under the public
 * directory. The clock (`time()`) is an input; uploads are moved to a path
 * derived from the group, the timestamp and the client's file name.
 */
module ConfiguracionesController {
  import opened Wrappers
  import opened Php
  import opened Seqs
  import opened Laravel
  import opened Configuraciones
  import ConfiguracionResource

  /** The files that exist under the public directory, by relative path. */
  type Files = set<string>

  /** The largest upload `update` and `subirImagen` accept, in kilobytes. */
  const MAX_UPLOAD_KB: nat := 10240

  /** The state after an action and what it answered. */
  datatype Step<T> = Step(store: seq<Entry>, files: Files, reply: Outcome<T>)

  /** `Configuraciones::findOrFail($id)`: the position of the row with that id. */
  function FindById(store: seq<Entry>, id: int): Option<nat> {
    FirstIndex(store, (e: Entry) => e.id == id)
  }

  // ---------------------------------------------------------------------------
  // Listing

  /** `index`: the rows of the requested group in table order, or every row without a filter. */
  function Index(store: seq<Entry>, grupo: Option<string>): (r: seq<Entry>)
    ensures grupo.None? ==> r == store
    ensures grupo.Some? ==> forall j :: 0 <= j < |r| ==> r[j].grupo == grupo.value
    ensures grupo.Some? ==> forall e :: multiset(r)[e] == if e.grupo == grupo.value then multiset(store)[e] else 0
  {
    match grupo
    case None => store
    case Some(g) => InGroup(store, g)
  }

  /**
   * `index` with a group keeps table order: nothing for an empty table, and a
   * row added at the end is listed last exactly when it belongs to the group.
   */
  lemma IndexKeepsOrder(store: seq<Entry>, e: Entry, g: string)
    ensures Index([], Some(g)) == []
    ensures Index(store + [e], Some(g)) == Index(store, Some(g)) + (if e.grupo == g then [e] else [])
  {
    FilterAppend(store, [e], GroupTest(g));
    FilterSingleton(e, GroupTest(g));
  }

  /** `select('grupo')->distinct()`: each group once, in order of first appearance. */
  function DistinctGroups(store: seq<Entry>): (r: seq<string>)
    ensures forall i, j :: 0 <= i < j < |r| ==> r[i] != r[j]
    ensures forall g :: g in r <==> exists e :: e in store && e.grupo == g
  {
    if |store| == 0 then []
    else
      var init := store[..|store| - 1];
      var last := store[|store| - 1];
      assert forall e :: e in store <==> e in init || e == last;
      var rest := DistinctGroups(init);
      if last.grupo in rest then rest else rest + [last.grupo]
  }

  /** The `grupos` answer: the group names and, per group, its rows. */
  datatype Grouped = Grouped(grupos: seq<string>, configuraciones: map<string, seq<Entry>>)

  /** `grupos`. */
  function Grupos(store: seq<Entry>): (r: Grouped)
    ensures forall i, j :: 0 <= i < j < |r.grupos| ==> r.grupos[i] != r.grupos[j]
    ensures forall g :: g in r.configuraciones <==> g in r.grupos
    ensures forall g :: g in r.configuraciones <==> exists e :: e in store && e.grupo == g
    ensures forall g :: g in r.configuraciones ==> r.configuraciones[g] == InGroup(store, g)
  {
    var names := DistinctGroups(store);
    Grouped(names, map g | g in names :: InGroup(store, g))
  }

  /** Under `grupos`, every row is listed under its own group and under no other. */
  lemma GruposPartition(store: seq<Entry>, e: Entry)
    requires e in store
    ensures e.grupo in Grupos(store).configuraciones
    ensures e in Grupos(store).configuraciones[e.grupo]
    ensures forall g :: g in Grupos(store).configuraciones && g != e.grupo ==> e !in Grupos(store).configuraciones[g]
  {
    var r := Grupos(store);
    FilterMembership(store, GroupTest(e.grupo), e);
    forall g | g in r.configuraciones && g != e.grupo
      ensures e !in r.configuraciones[g]
    {
      FilterMembership(store, GroupTest(g), e);
    }
  }

  /** `show`: the first row with that `clave`, or 404. */
  function Show(store: seq<Entry>, clave: string): (r: Outcome<Entry>)
    ensures r.Refused? <==> forall j :: 0 <= j < |store| ==> store[j].clave != clave
    ensures r.Refused? ==> r.code == NOT_FOUND
    ensures r.Done? ==> r.code == OK && r.value in store && r.value.clave == clave
    ensures r.Done? ==> exists j :: 0 <= j < |store| && store[j] == r.value
                                && forall i :: 0 <= i < j ==> store[i].clave != clave
  {
    match FindByClave(store, clave)
    case None => Refused(NOT_FOUND)
    case Some(j) => Done(OK, store[j])
  }

  // ---------------------------------------------------------------------------
  // Image files

  /** Where an uploaded image of a group is moved: `assets/configuraciones/<grupo>/<time>_<name>`. */
  function ImagePath(grupo: string, t: nat, originalName: string): string {
    "assets/configuraciones/" + grupo + "/" + NatToString(t) + "_" + originalName
  }

  /** Uploads at different seconds get different paths, whatever the file name. */
  lemma ImagePathsDifferAcrossSeconds(grupo: string, t1: nat, t2: nat, name: string)
    requires t1 != t2
    ensures ImagePath(grupo, t1, name) != ImagePath(grupo, t2, name)
  {
    var prefix := "assets/configuraciones/" + grupo + "/";
    var d1 := NatToString(t1);
    var d2 := NatToString(t2);
    var rest := "_" + name;
    assert ImagePath(grupo, t1, name) == prefix + (d1 + rest);
    assert ImagePath(grupo, t2, name) == prefix + (d2 + rest);
    if ImagePath(grupo, t1, name) == ImagePath(grupo, t2, name) {
      assert (prefix + (d1 + rest))[|prefix|..] == d1 + rest;
      assert (prefix + (d2 + rest))[|prefix|..] == d2 + rest;
      LeadingDigitsOfDigitsThen(d1, rest);
      LeadingDigitsOfDigitsThen(d2, rest);
      NatToStringInjective(t1, t2);
    }
  }

  /**
   * The file step shared by `update` and `subirImagen`: the previous file is
   * deleted when the old `valor` is truthy and exists, then the upload is
   * moved to `newPath`.
   */
  function ReplaceImage(files: Files, previous: Option<string>, newPath: string): (r: Files)
    ensures newPath in r
    ensures forall p :: p != newPath ==>
      (p in r <==> p in files && !(previous == Some(p) && StringToBool(p)))
  {
    var kept := if previous.Some? && StringToBool(previous.value) && previous.value in files then files - {previous.value} else files;
    kept + {newPath}
  }

  // ---------------------------------------------------------------------------
  // Updates

  /** The body of `update`: an optional new `valor` (null when absent) and an optional file. */
  datatype UpdateRequest = UpdateRequest(valor: Option<string>, archivo: Option<Upload>)

  /** `valor: required_without:archivo`, `archivo: sometimes|file|max:10240`. */
  predicate ValidUpdate(req: UpdateRequest) {
    && (req.archivo.None? ==> Filled(FromNullable(req.valor)))
    && (req.archivo.Some? ==> FileWithin(req.archivo.value, MAX_UPLOAD_KB))
  }

  /** The row with only its `valor` replaced. */
  predicate OnlyValorChanged(before: Entry, after: Entry) {
    after == before.(valor := after.valor)
  }

  /** `update`: 404 for an unknown id, 422 for an invalid body, otherwise the row's new `valor` is stored. */
  function Update(store: seq<Entry>, files: Files, id: int, req: UpdateRequest, t: nat): (r: Step<Entry>)
    ensures FindById(store, id).None? ==> r == Step(store, files, Refused(NOT_FOUND))
    ensures FindById(store, id).Some? && !ValidUpdate(req) ==> r == Step(store, files, Refused(UNPROCESSABLE))
    ensures FindById(store, id).Some? && ValidUpdate(req) ==> r.reply.Done?
    ensures r.reply.Refused? ==> r.store == store && r.files == files
    ensures r.reply.Done? ==>
      var k := FindById(store, id).value;
      var imageUpload := store[k].tipo == TIPO_IMAGEN && req.archivo.Some?;
      && ValidUpdate(req)
      && |r.store| == |store|
      && (forall j :: 0 <= j < |store| && j != k ==> r.store[j] == store[j])
      && OnlyValorChanged(store[k], r.store[k])
      && r.reply == Done(OK, r.store[k])
      && (imageUpload ==>
            r.store[k].valor == Some(ImagePath(store[k].grupo, t, req.archivo.value.originalName))
            && r.files == ReplaceImage(files, store[k].valor, r.store[k].valor.value))
      && (!imageUpload ==> r.store[k].valor == req.valor && r.files == files)
  {
    match FindById(store, id)
    case None => Step(store, files, Refused(NOT_FOUND))
    case Some(k) =>
      if !ValidUpdate(req) then Step(store, files, Refused(UNPROCESSABLE))
      else
        var e := store[k];
        if e.tipo == TIPO_IMAGEN && req.archivo.Some? then
          var path := ImagePath(e.grupo, t, req.archivo.value.originalName);
          var e' := e.(valor := Some(path));
          Step(store[k := e'], ReplaceImage(files, e.valor, path), Done(OK, e'))
        else
          var e' := e.(valor := req.valor);
          Step(store[k := e'], files, Done(OK, e'))
  }

  /** `subirImagen`: 404 for an unknown id, 422 without a valid file or for a non-image row, otherwise the upload replaces the image. */
  function SubirImagen(store: seq<Entry>, files: Files, id: int, archivo: Option<Upload>, t: nat): (r: Step<Entry>)
    ensures FindById(store, id).None? ==> r == Step(store, files, Refused(NOT_FOUND))
    ensures FindById(store, id).Some? &&
      (archivo.None? || !FileWithin(archivo.value, MAX_UPLOAD_KB) || store[FindById(store, id).value].tipo != TIPO_IMAGEN)
      ==> r == Step(store, files, Refused(UNPROCESSABLE))
    ensures (FindById(store, id).Some? && archivo.Some? && FileWithin(archivo.value, MAX_UPLOAD_KB)
             && store[FindById(store, id).value].tipo == TIPO_IMAGEN) ==> r.reply.Done?
    ensures r.reply.Refused? ==> r.store == store && r.files == files
    ensures r.reply.Done? ==>
      var k := FindById(store, id).value;
      var path := ImagePath(store[k].grupo, t, archivo.value.originalName);
      && |r.store| == |store|
      && (forall j :: 0 <= j < |store| && j != k ==> r.store[j] == store[j])
      && OnlyValorChanged(store[k], r.store[k])
      && r.store[k].valor == Some(path)
      && r.files == ReplaceImage(files, store[k].valor, path)
      && r.reply == Done(OK, r.store[k])
  {
    match FindById(store, id)
    case None => Step(store, files, Refused(NOT_FOUND))
    case Some(k) =>
      if archivo.None? || !FileWithin(archivo.value, MAX_UPLOAD_KB) then Step(store, files, Refused(UNPROCESSABLE))
      else if store[k].tipo != TIPO_IMAGEN then Step(store, files, Refused(UNPROCESSABLE))
      else
        var path := ImagePath(store[k].grupo, t, archivo.value.originalName);
        var e' := store[k].(valor := Some(path));
        Step(store[k := e'], ReplaceImage(files, store[k].valor, path), Done(OK, e'))
  }

  /** Every update keeps the primary key unique (no action changes an id). */
  lemma UpdatesKeepIdsUnique(store: seq<Entry>, files: Files, id: int, req: UpdateRequest, archivo: Option<Upload>, t: nat)
    requires UniqueIds(store)
    ensures UniqueIds(Update(store, files, id, req, t).store)
    ensures UniqueIds(SubirImagen(store, files, id, archivo, t).store)
  {
  }

  /** The previous image file survives an upload only when its path is falsy ("" or "0") or is the new path itself. */
  lemma OldImageDeletion(store: seq<Entry>, files: Files, id: int, archivo: Option<Upload>, t: nat)
    requires SubirImagen(store, files, id, archivo, t).reply.Done?
    ensures var k := FindById(store, id).value;
            var previous := store[k].valor;
            var r := SubirImagen(store, files, id, archivo, t);
            previous.Some? && previous.value in files && previous.value !in r.files <==>
              previous.Some? && previous.value in files && StringToBool(previous.value) && previous != r.store[k].valor
  {
  }

  // ---------------------------------------------------------------------------
  // Bulk update

  /** One element of `configuraciones` in `actualizarMultiple`. */
  datatype BulkItem = BulkItem(id: Option<int>, valor: Option<string>)

  /** `configuraciones: required|array`, `*.id: required|exists`, `*.valor: required`. */
  predicate ValidBulk(store: seq<Entry>, items: Option<seq<BulkItem>>) {
    && items.Some?
    && |items.value| > 0
    && forall j :: 0 <= j < |items.value| ==>
         && items.value[j].id.Some?
         && FindById(store, items.value[j].id.value).Some?
         && Filled(FromNullable(items.value[j].valor))
  }

  /** `findOrFail($id)->valor = $valor; save()`. */
  function SetValor(store: seq<Entry>, id: int, valor: Option<string>): seq<Entry> {
    match FindById(store, id)
    case None => store
    case Some(k) => store[k := store[k].(valor := valor)]
  }

  /** The writes of `actualizarMultiple`, one after the other. */
  function ApplyBulk(store: seq<Entry>, items: seq<BulkItem>): seq<Entry>
    decreases |items|
  {
    if |items| == 0 then store
    else
      var it := items[0];
      ApplyBulk(if it.id.Some? then SetValor(store, it.id.value, it.valor) else store, items[1..])
  }

  /** `actualizarMultiple`: all-or-nothing validation, then every listed row gets its `valor`; files are never touched, even for image rows. */
  function ActualizarMultiple(store: seq<Entry>, files: Files, items: Option<seq<BulkItem>>): (r: Step<()>)
    ensures r.files == files
    ensures !ValidBulk(store, items) ==> r.store == store && r.reply == Refused(UNPROCESSABLE)
    ensures ValidBulk(store, items) ==> r.store == ApplyBulk(store, items.value) && r.reply == Done(OK, ())
  {
    if !ValidBulk(store, items) then Step(store, files, Refused(UNPROCESSABLE))
    else Step(ApplyBulk(store, items.value), files, Done(OK, ()))
  }

  /** The `valor` the last item naming `id` carries, if any item names it. */
  function LastValorFor(items: seq<BulkItem>, id: int): Option<Option<string>> {
    if |items| == 0 then None
    else if items[|items| - 1].id == Some(id) then Some(items[|items| - 1].valor)
    else LastValorFor(items[..|items| - 1], id)
  }

  /** The row after the bulk writes: the last listed `valor` for its id wins. */
  function AfterBulk(e: Entry, items: seq<BulkItem>): Entry {
    match LastValorFor(items, e.id)
    case None => e
    case Some(v) => e.(valor := v)
  }

  /** One write changes exactly the row with that id. */
  lemma SetValorEffect(store: seq<Entry>, id: int, valor: Option<string>)
    requires UniqueIds(store)
    ensures |SetValor(store, id, valor)| == |store|
    ensures UniqueIds(SetValor(store, id, valor))
    ensures forall j :: 0 <= j < |store| ==>
      SetValor(store, id, valor)[j] == if store[j].id == id then store[j].(valor := valor) else store[j]
  {
  }

  /**
   * The bulk writes give every row the `valor` of the last item naming it, and
   * leave the other rows and every other column untouched.
   */
  lemma {:induction false} ApplyBulkEffect(store: seq<Entry>, items: seq<BulkItem>)
    requires UniqueIds(store)
    ensures |ApplyBulk(store, items)| == |store|
    ensures forall j :: 0 <= j < |store| ==> ApplyBulk(store, items)[j] == AfterBulk(store[j], items)
    decreases |items|
  {
    if |items| > 0 {
      var it := items[0];
      var next := if it.id.Some? then SetValor(store, it.id.value, it.valor) else store;
      if it.id.Some? {
        SetValorEffect(store, it.id.value, it.valor);
      }
      ApplyBulkEffect(next, items[1..]);
      forall j | 0 <= j < |store|
        ensures ApplyBulk(store, items)[j] == AfterBulk(store[j], items)
      {
        AfterBulkSplit(store[j], it, items[1..]);
        assert [it] + items[1..] == items;
      }
    }
  }

  /** Applying the first item and then the rest is the same as the combined effect. */
  lemma {:induction false} AfterBulkSplit(e: Entry, it: BulkItem, rest: seq<BulkItem>)
    ensures AfterBulk(e, [it] + rest) ==
      AfterBulk(if it.id == Some(e.id) then e.(valor := it.valor) else e, rest)
    decreases |rest|
  {
    var items := [it] + rest;
    if |rest| == 0 {
      assert items[..0] == [];
    } else {
      assert items[..|items| - 1] == [it] + rest[..|rest| - 1];
      AfterBulkSplit(e, it, rest[..|rest| - 1]);
    }
  }

  /** `actualizarMultiple` rejects the whole batch when any item is invalid, and otherwise applies every item, the last one for an id winning. */
  lemma ActualizarMultipleEffect(store: seq<Entry>, files: Files, items: Option<seq<BulkItem>>)
    requires UniqueIds(store)
    ensures var r := ActualizarMultiple(store, files, items);
      && (r.reply.Refused? <==> !ValidBulk(store, items))
      && |r.store| == |store|
      && (r.reply.Done? ==> forall j :: 0 <= j < |store| ==> r.store[j] == AfterBulk(store[j], items.value))
  {
    if ValidBulk(store, items) {
      ApplyBulkEffect(store, items.value);
    }
  }

  /** A batch naming an unknown id is refused even when the other items are valid. */
  lemma UnknownIdRejectsBatch(store: seq<Entry>, files: Files, items: seq<BulkItem>, j: nat)
    requires j < |items| && items[j].id.Some? && FindById(store, items[j].id.value).None?
    ensures ActualizarMultiple(store, files, Some(items)) == Step(store, files, Refused(UNPROCESSABLE))
  {
  }

  // ---------------------------------------------------------------------------
  // Public reads

  /** The controller's inline copy of the decoder in `obtenerTodas`: start from the raw column, override for three types. */
  function SnapshotValue(e: Entry, parse: JsonParser): (r: Value)
    ensures r == Decode(e.tipo, e.valor, parse)
  {
    var valor := FromNullable(e.valor);
    match e.tipo
    case "json" => JsonDecode(e.valor, parse)
    case "booleano" => Bool(Truthy(FromNullable(e.valor)))
    case "numero" => Int(NullableToInt(e.valor))
    case _ => valor
  }

  /** The three copies of the decoder (model, resource, `obtenerTodas`) agree everywhere. */
  lemma DecoderCopiesAgree(e: Entry, parse: JsonParser)
    ensures SnapshotValue(e, parse) == Decode(e.tipo, e.valor, parse)
    ensures ConfiguracionResource.Decode(e.tipo, e.valor, parse) == Decode(e.tipo, e.valor, parse)
  {
    ConfiguracionResource.DecodersAgree(e.tipo, e.valor, parse);
  }

  /** No later row shares this row's `clave`. */
  ghost predicate LastWithClave(store: seq<Entry>, j: int)
    requires 0 <= j < |store|
  {
    forall i :: j < i < |store| ==> store[i].clave != store[j].clave
  }

  /** A row that is last with its `clave` among the first n + 1 rows is last among the first n, and row n has another `clave`. */
  lemma LastInPrefix(store: seq<Entry>, n: nat, j: nat)
    requires j < n < |store|
    requires LastWithClave(store[..n + 1], j)
    ensures LastWithClave(store[..n], j)
    ensures store[n].clave != store[j].clave
  {
    assert store[..n + 1][n] == store[n];
    forall i | j < i < n
      ensures store[..n][i].clave != store[..n][j].clave
    {
      assert store[..n + 1][i] == store[..n][i];
    }
  }

  /** `obtenerTodas`: one key per distinct `clave`, mapped to the decoded value of the last row with it. */
  method ObtenerTodas(store: seq<Entry>, parse: JsonParser) returns (r: map<string, Value>)
    ensures r.Keys == set e | e in store :: e.clave
    ensures forall j :: 0 <= j < |store| && LastWithClave(store, j) ==>
      r[store[j].clave] == Decode(store[j].tipo, store[j].valor, parse)
  {
    r := map[];
    var n := 0;
    while n < |store|
      invariant 0 <= n <= |store|
      invariant r.Keys == set e | e in store[..n] :: e.clave
      invariant forall j :: 0 <= j < n && LastWithClave(store[..n], j) ==>
        r[store[j].clave] == Decode(store[j].tipo, store[j].valor, parse)
    {
      var e := store[n];
      DecoderCopiesAgree(e, parse);
      r := r[e.clave := SnapshotValue(e, parse)];
      assert store[..n + 1] == store[..n] + [e];
      forall j | 0 <= j < n + 1 && LastWithClave(store[..n + 1], j)
        ensures r[store[j].clave] == Decode(store[j].tipo, store[j].valor, parse)
      {
        if j < n {
          LastInPrefix(store, n, j);
        }
      }
      n := n + 1;
    }
    assert store[..n] == store;
  }

  /** The condition `where('clave', $clave)->where('tipo', 'imagen')` tests. */
  function ImageTest(clave: string): Entry -> bool {
    (e: Entry) => e.clave == clave && e.tipo == TIPO_IMAGEN
  }

  /** The row `where('clave', $clave)->where('tipo', 'imagen')->first()` finds. */
  predicate FirstImageRow(store: seq<Entry>, clave: string, j: int) {
    && 0 <= j < |store|
    && store[j].clave == clave && store[j].tipo == TIPO_IMAGEN
    && forall i :: 0 <= i < j ==> !(store[i].clave == clave && store[i].tipo == TIPO_IMAGEN)
  }

  /** At most one row is the first image row of a `clave`. */
  lemma FirstImageRowUnique(store: seq<Entry>, clave: string, j: int, k: int)
    requires FirstImageRow(store, clave, j) && FirstImageRow(store, clave, k)
    ensures j == k
  {
  }

  /**
   * `obtenerImagen`: 404 without an image row; for the first image row, its
   * path when that file exists and 404 when it does not. A null or empty
   * `valor` names the public directory itself, which exists but cannot be
   * served as a file: 500.
   */
  function ObtenerImagen(store: seq<Entry>, files: Files, clave: string): (r: Outcome<string>)
    ensures (forall j :: 0 <= j < |store| ==> !(store[j].clave == clave && store[j].tipo == TIPO_IMAGEN))
      ==> r == Refused(NOT_FOUND)
    ensures forall j :: FirstImageRow(store, clave, j) ==>
      var path := store[j].valor.GetOr("");
      r == if path == "" then Refused(SERVER_ERROR)
           else if path in files then Done(OK, path)
           else Refused(NOT_FOUND)
  {
    match FirstIndex(store, ImageTest(clave))
    case None => Refused(NOT_FOUND)
    case Some(k) =>
      assert FirstImageRow(store, clave, k);
      assert forall j :: FirstImageRow(store, clave, j) ==> j == k by {
        forall j | FirstImageRow(store, clave, j) {
          FirstImageRowUnique(store, clave, j, k);
        }
      }
      var path := store[k].valor.GetOr("");
      if path == "" then Refused(SERVER_ERROR)
      else if path in files then Done(OK, path) else Refused(NOT_FOUND)
  }

  /** Two image rows with the same `clave`: only the first one is ever served. */
  lemma ObtenerImagenServesFirst(store: seq<Entry>, files: Files, clave: string, i: nat, j: nat)
    requires i < j < |store|
    requires FirstImageRow(store, clave, i)
    requires store[j].clave == clave && store[j].tipo == TIPO_IMAGEN
    requires store[i].valor != store[j].valor
    ensures ObtenerImagen(store, files, clave) != Done(OK, store[j].valor.GetOr(""))
  {
  }

  /** A `clave` with no image row is never served, whatever its raw value. */
  lemma NonImageNotServed(store: seq<Entry>, files: Files, clave: string)
    requires forall j :: 0 <= j < |store| && store[j].clave == clave ==> store[j].tipo != TIPO_IMAGEN
    ensures ObtenerImagen(store, files, clave) == Refused(NOT_FOUND)
  {
  }

  /** A maintenance-mode walk-through: `modo_mantenimiento` stored as "0" reads false, and true after `update` to "1". */
  method MaintenanceScenario(parse: JsonParser) returns (before: map<string, Value>, after: map<string, Value>)
    ensures "modo_mantenimiento" in before && before["modo_mantenimiento"] == Bool(false)
    ensures "modo_mantenimiento" in after && after["modo_mantenimiento"] == Bool(true)
  {
    var row := Entry(1, "modo_mantenimiento", Some("0"), TIPO_BOOLEANO, None, "general", None, None);
    var store := [row];
    before := ObtenerTodas(store, parse);
    assert LastWithClave(store, 0);
    assert FindById(store, 1) == Some(0);
    assert !IsTrimChar("1"[0]);
    var step := Update(store, {}, 1, UpdateRequest(Some("1"), None), 0);
    assert step.store == [row.(valor := Some("1"))];
    after := ObtenerTodas(step.store, parse);
    assert LastWithClave(step.store, 0);
  }
}

=== FILE: laravel.dfy ===
/**
 * The framework services the controllers call, reduced to what decides their
 * outcome: HTTP status codes, the validation rules used in the rule strings,
 * uploaded files, and the collaborators that stay abstract (password hashing
 * and the e-mail address validator).
 */
module Laravel {
  import opened Wrappers
  import opened Php

  const OK: int := 200
  const CREATED: int := 201
  const BAD_REQUEST: int := 400
  const UNAUTHORIZED: int := 401
  const FORBIDDEN: int := 403
  const NOT_FOUND: int := 404
  const UNPROCESSABLE: int := 422
  const SERVER_ERROR: int := 500

  /** What a controller action answers: a status code, with the payload when it succeeded. */
  datatype Outcome<T> = Done(code: int, value: T) | Refused(code: int)

  /** A multipart upload: client file name, extension guessed from its content, size in kilobytes. */
  datatype Upload = Upload(originalName: string, extension: string, sizeKb: nat)

  /**
   * Collaborators whose code is not part of this model: `Hash::make`,
   * `Hash::check` and the `email` validation rule.
   */
  datatype Services = Services(
    hashMake: string -> string,
    hashCheck: (string, string) -> bool,
    isEmail: string -> bool)

  /** `Hash::check` accepts what `Hash::make` produced. */
  ghost predicate SoundHashing(svc: Services) {
    forall p :: svc.hashCheck(p, svc.hashMake(p))
  }

  // ---------------------------------------------------------------------------
  // Validation rules. A request field is `None` when its key is absent and
  // `Some(Null)` when it is present with a null value.

  /** The characters PHP's `trim` strips. */
  predicate IsTrimChar(c: char) {
    c == ' ' || c == '\t' || c == '\n' || c == '\r' || c == '\0' || c == '\U{0B}'
  }

  /** `trim($s) === ''`. */
  predicate Blank(s: string) {
    forall j :: 0 <= j < |s| ==> IsTrimChar(s[j])
  }

  /** The value test of the `required` rule: not null, not a blank string, not an empty array. */
  predicate Filled(v: Value) {
    match v
    case Null => false
    case Str(s) => !Blank(s)
    case Arr(items) => |items| > 0
    case _ => true
  }

  /** `required|string`. */
  predicate RequiredText(f: Option<Value>) {
    f.Some? && Filled(f.value) && f.value.Str?
  }

  /** `required|string|max:n`. */
  predicate RequiredString(f: Option<Value>, max: nat) {
    RequiredText(f) && |f.value.s| <= max
  }

  /** `sometimes|required|string|max:n`: checked only when the key is present. */
  predicate SometimesRequiredString(f: Option<Value>, max: nat) {
    f.None? || RequiredString(f, max)
  }

  /** `nullable|string`: absent, null, or a string. */
  predicate NullableString(f: Option<Value>) {
    f.None? || f.value.Null? || f.value.Str?
  }

  /** `required|in:...` over string values. */
  predicate RequiredIn(f: Option<Value>, allowed: set<string>) {
    f.Some? && f.value.Str? && f.value.s in allowed
  }

  /** A string accepted by `filter_var(..., FILTER_VALIDATE_INT)`: an optional sign, then 0 or digits without a leading zero. */
  predicate IsIntegerLiteral(s: string) {
    var d := if |s| > 0 && (s[0] == '+' || s[0] == '-') then s[1..] else s;
    |d| > 0 && AllDigits(d) && (d[0] == '0' ==> |d| == 1)
  }

  /**
   * The `integer` rule, `filter_var($v, FILTER_VALIDATE_INT)`: an integer or
   * an integer literal within PHP's 64-bit range, or `true` (which reads as "1").
   */
  predicate IsInteger(v: Value) {
    || (v.Int? && InIntRange(v.i))
    || (v.Str? && IsIntegerLiteral(v.s) && InIntRange(LeadingInteger(v.s)))
    || v == Bool(true)
  }

  /** The integer a value accepted by the `integer` rule stands for. */
  function IntegerValue(v: Value): (r: int)
    requires IsInteger(v)
    ensures InIntRange(r)
  {
    if v.Int? then v.i else if v.Str? then StringToInt(v.s) else 1
  }

  /** `required|integer|min:m`. */
  predicate RequiredIntegerMin(f: Option<Value>, min: int) {
    f.Some? && IsInteger(f.value) && IntegerValue(f.value) >= min
  }

  /** The `boolean` rule: true, false, 1, 0, "1" or "0". */
  predicate IsBooleanLike(v: Value) {
    v == Bool(true) || v == Bool(false) || v == Int(1) || v == Int(0) || v == Str("1") || v == Str("0")
  }

  /** `sometimes|boolean`. */
  predicate SometimesBoolean(f: Option<Value>) {
    f.None? || IsBooleanLike(f.value)
  }

  /** `required|email` (the address syntax check is the collaborator's). */
  predicate RequiredEmail(f: Option<Value>, svc: Services) {
    f.Some? && Filled(f.value) && f.value.Str? && svc.isEmail(f.value.s)
  }

  /** `required|string|min:n`. */
  predicate RequiredStringMin(f: Option<Value>, min: nat) {
    f.Some? && Filled(f.value) && f.value.Str? && |f.value.s| >= min
  }

  /** The `confirmed` rule on `password`: `password_confirmation` carries the same value. */
  predicate Confirmed(f: Option<Value>, confirmation: Option<Value>) {
    f.Some? && confirmation == f
  }

  /** `file|max:n` on an upload. */
  predicate FileWithin(u: Upload, maxKb: nat) {
    u.sizeKb <= maxKb
  }

  /** `image|mimes:jpeg,png,jpg,gif|max:2048`. */
  predicate BannerImage(u: Upload) {
    u.extension in {"jpeg", "png", "jpg", "gif"} && u.sizeKb <= 2048
  }

  /** The string an accepted string field carries. */
  function Text(f: Option<Value>): string
    requires f.Some? && f.value.Str?
  {
    f.value.s
  }
}

=== FILE: php.dfy ===
/**
 * The slice of PHP's value semantics the application relies on: the dynamic
 * value type, truthiness (`if ($x)`, `(bool)`), the `(int)` cast of a string,
 * and the decimal rendering of integers (`time() . '_'`).
 */
module Php {
  import opened Wrappers

  /** The bounds of PHP's 64-bit `int`. */
  const PHP_INT_MAX: int := 0x7FFF_FFFF_FFFF_FFFF
  const PHP_INT_MIN: int := -PHP_INT_MAX - 1

  predicate InIntRange(i: int) {
    PHP_INT_MIN <= i <= PHP_INT_MAX
  }

  /** An array key: PHP arrays are ordered maps keyed by integers or strings. */
  datatype Key = IntKey(n: int) | StrKey(name: string)

  /**
   * A PHP value as produced by `json_decode($text, true)` or read from a
   * request body. Floats are modelled as exact reals.
   */
  datatype Value =
    | Null
    | Bool(b: bool)
    | Int(i: int)
    | Real(r: real)
    | Str(s: string)
    | Arr(items: seq<(Key, Value)>)

  /** The value stored under `k` in an array's item list (the first one, keys being unique in PHP). */
  function Get(items: seq<(Key, Value)>, k: Key): (r: Option<Value>)
    ensures r.None? <==> forall j :: 0 <= j < |items| ==> items[j].0 != k
    ensures r.Some? ==> exists j :: 0 <= j < |items| && items[j] == (k, r.value)
  {
    if |items| == 0 then None
    else if items[0].0 == k then Some(items[0].1)
    else
      var r := Get(items[1..], k);
      assert forall j :: 0 < j < |items| ==> items[j] == items[1..][j - 1];
      r
  }

  /** Looking up a key that occurs exactly once yields the value stored with it. */
  lemma GetUniqueKey(items: seq<(Key, Value)>, j: nat)
    requires j < |items|
    requires forall i :: 0 <= i < |items| && i != j ==> items[i].0 != items[j].0
    ensures Get(items, items[j].0) == Some(items[j].1)
  {
  }

  /** In an array whose keys are pairwise distinct, every key looks up its own value. */
  lemma GetDistinctKeys(items: seq<(Key, Value)>)
    requires forall i, j :: 0 <= i < j < |items| ==> items[i].0 != items[j].0
    ensures forall j :: 0 <= j < |items| ==> Get(items, items[j].0) == Some(items[j].1)
  {
    forall j | 0 <= j < |items|
      ensures Get(items, items[j].0) == Some(items[j].1)
    {
      GetUniqueKey(items, j);
    }
  }

  /** The keys of an array, in order. */
  function Keys(items: seq<(Key, Value)>): seq<Key> {
    seq(|items|, j requires 0 <= j < |items| => items[j].0)
  }

  /** A nullable string column as a PHP value. */
  function FromNullable(o: Option<string>): Value {
    match o
    case None => Null
    case Some(s) => Str(s)
  }

  /** `(bool) $s` for a string: only the empty string and "0" are false. */
  predicate StringToBool(s: string) {
    !(s == "" || s == "0")
  }

  /** PHP truthiness, as used by `if ($x)` and `(bool) $x`. */
  predicate Truthy(v: Value) {
    match v
    case Null => false
    case Bool(b) => b
    case Int(i) => i != 0
    case Real(r) => r != 0.0
    case Str(s) => StringToBool(s)
    case Arr(items) => |items| > 0
  }

  /** `empty($s)` for a string. */
  predicate EmptyString(s: string) {
    !StringToBool(s)
  }

  // ---------------------------------------------------------------------------
  // Decimal digits

  predicate IsDigit(c: char) {
    '0' <= c <= '9'
  }

  predicate AllDigits(s: string) {
    forall j :: 0 <= j < |s| ==> IsDigit(s[j])
  }

  function DigitValue(c: char): nat
    requires IsDigit(c)
  {
    (c as int) - ('0' as int)
  }

  function DigitChar(d: nat): (c: char)
    requires d < 10
    ensures IsDigit(c) && DigitValue(c) == d
  {
    ((('0' as int) + d) as char)
  }

  /** The value of a string of decimal digits (the empty string has value 0). */
  function DigitsValue(d: string): nat
    requires AllDigits(d)
  {
    if |d| == 0 then 0
    else DigitsValue(d[..|d| - 1]) * 10 + DigitValue(d[|d| - 1])
  }

  /** The longest prefix of `s` made of decimal digits. */
  function LeadingDigits(s: string): (r: string)
    ensures AllDigits(r)
    ensures |r| <= |s| && r == s[..|r|]
    ensures |r| < |s| ==> !IsDigit(s[|r|])
  {
    if |s| > 0 && IsDigit(s[0]) then [s[0]] + LeadingDigits(s[1..]) else []
  }

  /** The characters PHP skips before a leading-numeric string. */
  predicate IsNumericWhitespace(c: char) {
    c == ' ' || c == '\t' || c == '\n' || c == '\r' || c == '\U{0B}' || c == '\U{0C}'
  }

  function SkipNumericWhitespace(s: string): (r: string)
    ensures |r| <= |s| && r == s[|s| - |r|..]
    ensures |r| > 0 ==> !IsNumericWhitespace(r[0])
  {
    if |s| > 0 && IsNumericWhitespace(s[0]) then SkipNumericWhitespace(s[1..]) else s
  }

  /**
   * The integer a string starts with, read without a width limit: after
   * optional whitespace and an optional sign, the value of the leading run of
   * digits; 0 when there is none.
   */
  function LeadingInteger(s: string): int {
    var t := SkipNumericWhitespace(s);
    if |t| > 0 && t[0] == '-' then -(DigitsValue(LeadingDigits(t[1..])) as int)
    else if |t| > 0 && t[0] == '+' then DigitsValue(LeadingDigits(t[1..]))
    else DigitsValue(LeadingDigits(t))
  }

  /** The nearest value of PHP's `int` range. */
  function Saturate(i: int): (r: int)
    ensures InIntRange(r)
    ensures InIntRange(i) ==> r == i
    ensures i > PHP_INT_MAX ==> r == PHP_INT_MAX
    ensures i < PHP_INT_MIN ==> r == PHP_INT_MIN
  {
    if i > PHP_INT_MAX then PHP_INT_MAX else if i < PHP_INT_MIN then PHP_INT_MIN else i
  }

  /**
   * `(int) $s`: the leading integer, saturated at `PHP_INT_MAX` and
   * `PHP_INT_MIN` when it does not fit. Fraction and exponent forms ("1e3")
   * are not read.
   */
  function StringToInt(s: string): (r: int)
    ensures InIntRange(r)
    ensures (forall j :: 0 <= j < |s| ==> !IsDigit(s[j])) ==> r == 0
    ensures r < 0 ==> exists j :: 0 <= j < |s| && s[j] == '-'
  {
    Saturate(LeadingInteger(s))
  }

  /** `(int) $v` for a nullable string column: `(int) null` is 0. */
  function NullableToInt(o: Option<string>): int {
    StringToInt(o.GetOr(""))
  }

  /** The decimal rendering of a natural number, as string concatenation writes it. */
  function NatToString(n: nat): (r: string)
    ensures |r| > 0 && AllDigits(r)
  {
    if n < 10 then [DigitChar(n)]
    else NatToString(n / 10) + [DigitChar(n % 10)]
  }

  /** The decimal rendering of an integer, with a leading '-' when negative. */
  function IntToString(i: int): (r: string)
    ensures |r| > 0
  {
    if i < 0 then "-" + NatToString(-i) else NatToString(i)
  }

  // ---------------------------------------------------------------------------
  // Properties of the integer cast

  /** Reading back a rendered natural number gives the number. */
  lemma {:induction false} DigitsValueOfNatToString(n: nat)
    ensures DigitsValue(NatToString(n)) == n
  {
    if n >= 10 {
      var s := NatToString(n);
      assert s[..|s| - 1] == NatToString(n / 10);
      DigitsValueOfNatToString(n / 10);
    }
  }

  /** The rendering of natural numbers is injective. */
  lemma NatToStringInjective(a: nat, b: nat)
    requires NatToString(a) == NatToString(b)
    ensures a == b
  {
    DigitsValueOfNatToString(a);
    DigitsValueOfNatToString(b);
  }

  /** A tail that PHP's integer cast stops at: it starts with neither a digit nor a fraction or exponent mark. */
  predicate EndsNumber(rest: string) {
    |rest| == 0 || !(IsDigit(rest[0]) || rest[0] in ".eE")
  }

  /** A run of digits followed by a non-digit is exactly the leading digits. */
  lemma {:induction false} LeadingDigitsOfDigitsThen(d: string, rest: string)
    requires AllDigits(d)
    requires |rest| == 0 || !IsDigit(rest[0])
    ensures LeadingDigits(d + rest) == d
  {
    if |d| > 0 {
      assert (d + rest)[1..] == d[1..] + rest;
      LeadingDigitsOfDigitsThen(d[1..], rest);
    } else {
      assert d + rest == rest;
    }
  }

  /**
   * The integer cast undoes the rendering of any integer in PHP's range when
   * the text after it cannot continue a number: `(int) "10"` is 10 and
   * `(int) "12abc"` is 12.
   */
  lemma IntCastOfRendering(i: int, rest: string)
    requires InIntRange(i)
    requires EndsNumber(rest)
    ensures StringToInt(IntToString(i) + rest) == i
  {
    LeadingIntegerOfRendering(i, rest);
  }

  /** Beyond PHP's range the cast saturates: a larger rendering reads as `PHP_INT_MAX`, a smaller one as `PHP_INT_MIN`. */
  lemma IntCastSaturates(i: int, rest: string)
    requires !InIntRange(i)
    requires EndsNumber(rest)
    ensures StringToInt(IntToString(i) + rest) == if i > 0 then PHP_INT_MAX else PHP_INT_MIN
  {
    LeadingIntegerOfRendering(i, rest);
  }

  /** Read without a width limit, a rendered integer followed by a non-digit gives the integer back. */
  lemma LeadingIntegerOfRendering(i: int, rest: string)
    requires |rest| == 0 || !IsDigit(rest[0])
    ensures LeadingInteger(IntToString(i) + rest) == i
  {
    if i < 0 {
      var n: nat := -i;
      assert IntToString(i) == "-" + NatToString(n);
      NegativeCastOfRendering(n, rest);
    } else {
      var d := NatToString(i);
      assert IntToString(i) == d;
      DigitsCast(d, rest);
      DigitsValueOfNatToString(i);
    }
  }

  /** Digits followed by a non-digit read as the digits' value. */
  lemma DigitsCast(d: string, rest: string)
    requires |d| > 0 && AllDigits(d)
    requires |rest| == 0 || !IsDigit(rest[0])
    ensures LeadingInteger(d + rest) == DigitsValue(d)
  {
    var s := d + rest;
    assert s[0] == d[0] && IsDigit(d[0]);
    assert SkipNumericWhitespace(s) == s;
    LeadingDigitsOfDigitsThen(d, rest);
  }

  /** A minus sign, a rendered positive number and a non-digit read as the negative number. */
  lemma NegativeCastOfRendering(n: nat, rest: string)
    requires n > 0
    requires |rest| == 0 || !IsDigit(rest[0])
    ensures LeadingInteger("-" + NatToString(n) + rest) == -(n as int)
  {
    var d := NatToString(n);
    var s := "-" + d + rest;
    assert s[0] == '-';
    assert SkipNumericWhitespace(s) == s;
    assert s[1..] == d + rest;
    LeadingDigitsOfDigitsThen(d, rest);
    DigitsValueOfNatToString(n);
  }

  /** `(int) "10"` is 10. */
  lemma CastOfTen()
    ensures StringToInt("10") == 10
  {
    assert LeadingInteger("10") == 10 by {
      assert SkipNumericWhitespace("10") == "10";
      assert LeadingDigits("10"[1..][1..]) == [];
      assert LeadingDigits("10") == "10";
      assert "10"[..1] == "1" && "1"[..0] == [];
      assert DigitsValue("1") == 1;
      assert DigitsValue("10") == DigitsValue("1") * 10 + DigitValue('0');
    }
  }

  /** `(int) "12abc"` is 12. */
  lemma CastOfTwelveAbc()
    ensures StringToInt("12abc") == 12
  {
    assert LeadingInteger("12abc") == 12 by {
      assert SkipNumericWhitespace("12abc") == "12abc";
      assert LeadingDigits("12abc"[1..][1..]) == [];
      assert LeadingDigits("12abc") == "12";
      assert "12"[..1] == "1" && "1"[..0] == [];
      assert DigitsValue("1") == 1;
      assert DigitsValue("12") == DigitsValue("1") * 10 + DigitValue('2');
    }
  }

  /** A string whose first non-blank character is neither a digit nor a sign followed by a digit casts to 0. */
  lemma IntCastOfNonNumeric(s: string)
    requires var t := SkipNumericWhitespace(s);
      |t| == 0 || (!IsDigit(t[0]) && (t[0] in "+-" ==> |t| == 1 || !IsDigit(t[1])))
    ensures StringToInt(s) == 0
  {
  }
}

=== FILE: seqs.dfy ===
/**
 * The two query shapes the controllers use on a table held as a sequence of
 * rows: `->where(...)->first()` / `find` (the first row satisfying a
 * condition) and `->where(...)->get()` (all rows satisfying it, in order).
 */
module Seqs {
  import opened Wrappers

  /** The position of the first element satisfying `p`, if any. */
  function FirstIndex<T>(s: seq<T>, p: T -> bool): (r: Option<nat>)
    ensures r.Some? ==> r.value < |s| && p(s[r.value])
    ensures r.Some? ==> forall j :: 0 <= j < r.value ==> !p(s[j])
    ensures r.None? <==> forall j :: 0 <= j < |s| ==> !p(s[j])
  {
    if |s| == 0 then None
    else if p(s[0]) then Some(0)
    else
      match FirstIndex(s[1..], p)
      case None => None
      case Some(k) => Some(k + 1)
  }

  /** The elements satisfying `p`, in their original order. */
  function Filter<T(!new)>(s: seq<T>, p: T -> bool): (r: seq<T>)
    ensures |r| <= |s|
    ensures forall j :: 0 <= j < |r| ==> p(r[j])
    ensures forall x :: multiset(r)[x] == if p(x) then multiset(s)[x] else 0
  {
    if |s| == 0 then []
    else
      assert s == [s[0]] + s[1..];
      (if p(s[0]) then [s[0]] else []) + Filter(s[1..], p)
  }

  /** Filtering a non-empty sequence: its head, if kept, then the filtered tail. */
  lemma FilterCons<T(!new)>(s: seq<T>, p: T -> bool)
    requires |s| > 0
    ensures Filter(s, p) == (if p(s[0]) then [s[0]] else []) + Filter(s[1..], p)
  {
  }

  /** Filtering keeps relative order: it distributes over concatenation. */
  lemma {:induction false} FilterAppend<T(!new)>(a: seq<T>, b: seq<T>, p: T -> bool)
    ensures Filter(a + b, p) == Filter(a, p) + Filter(b, p)
  {
    if |a| == 0 {
      assert a + b == b;
    } else {
      FilterAppend(a[1..], b, p);
      FilterAppendStep(a, b, p);
    }
  }

  /** The inductive step of `FilterAppend`: the head of `a` goes first. */
  lemma FilterAppendStep<T(!new)>(a: seq<T>, b: seq<T>, p: T -> bool)
    requires |a| > 0
    requires Filter(a[1..] + b, p) == Filter(a[1..], p) + Filter(b, p)
    ensures Filter(a + b, p) == Filter(a, p) + Filter(b, p)
  {
    var ab := a + b;
    var h := if p(a[0]) then [a[0]] else [];
    ConcatTail(a, b);
    var fa, fb := Filter(a[1..], p), Filter(b, p);
    FilterCons(a, p);
    FilterCons(ab, p);
    assert Filter(ab, p) == h + (fa + fb);
    assert Filter(a, p) == h + fa;
    ConcatAssoc(h, fa, fb);
  }

  /** The head and tail of a concatenation whose left part is non-empty. */
  lemma ConcatTail<T>(a: seq<T>, b: seq<T>)
    requires |a| > 0
    ensures (a + b)[0] == a[0] && (a + b)[1..] == a[1..] + b
  { }

  /** Concatenation is associative; stated apart so that no `Filter` term is in scope. */
  lemma ConcatAssoc<T>(x: seq<T>, y: seq<T>, z: seq<T>)
    ensures x + (y + z) == (x + y) + z
  { }

  /** A one-element sequence is kept exactly when its element satisfies `p`. */
  lemma FilterSingleton<T(!new)>(x: T, p: T -> bool)
    ensures Filter([x], p) == if p(x) then [x] else []
  {
    assert [x][1..] == [];
  }

  /** An element is kept exactly when it occurs in the input and satisfies `p`. */
  lemma FilterMembership<T(!new)>(s: seq<T>, p: T -> bool, x: T)
    ensures x in Filter(s, p) <==> x in s && p(x)
  {
    var r := Filter(s, p);
    assert x in r <==> multiset(r)[x] > 0;
    assert x in s <==> multiset(s)[x] > 0;
  }
}

=== FILE: sorting.dfy ===
/**
 * `->orderBy(column)` on an integer column, as a functional insertion sort.
 * Descending order is obtained by sorting on the negated key.
 */
module Sorting {

  /** `s` is non-decreasing in `key`. */
  ghost predicate SortedBy<T>(s: seq<T>, key: T -> int) {
    forall i, j :: 0 <= i < j < |s| ==> key(s[i]) <= key(s[j])
  }

  /** Inserts `x` into a sorted sequence before the first element with a larger key. */
  function Insert<T>(x: T, s: seq<T>, key: T -> int): (r: seq<T>)
    requires SortedBy(s, key)
    ensures SortedBy(r, key)
    ensures multiset(r) == multiset(s) + multiset{x}
    ensures |r| == |s| + 1
  {
    if |s| == 0 || key(x) <= key(s[0]) then [x] + s
    else
      var tail := Insert(x, s[1..], key);
      assert s == [s[0]] + s[1..];
      BoundedByPermutation(key(s[0]), tail, s[1..], x, key);
      [s[0]] + tail
  }

  /** A lower bound on the keys of `rest` and of `x` bounds every permutation of them. */
  lemma BoundedByPermutation<T>(bound: int, perm: seq<T>, rest: seq<T>, x: T, key: T -> int)
    requires multiset(perm) == multiset(rest) + multiset{x}
    requires forall j :: 0 <= j < |rest| ==> bound <= key(rest[j])
    requires bound <= key(x)
    ensures forall j :: 0 <= j < |perm| ==> bound <= key(perm[j])
  {
    forall j | 0 <= j < |perm|
      ensures bound <= key(perm[j])
    {
      var y := perm[j];
      assert y in multiset(perm);
      if y != x {
        assert y in multiset(rest);
        assert y in rest;
        var k :| 0 <= k < |rest| && rest[k] == y;
      }
    }
  }

  /** A permutation of `s` that is non-decreasing in `key`; equal keys keep their input order. */
  function SortBy<T>(s: seq<T>, key: T -> int): (r: seq<T>)
    ensures SortedBy(r, key)
    ensures multiset(r) == multiset(s)
    ensures |r| == |s|
  {
    if |s| == 0 then []
    else
      assert s == [s[0]] + s[1..];
      Insert(s[0], SortBy(s[1..], key), key)
  }
}

=== FILE: user_controller.dfy ===
/**
 * User administration (app/Http/Controllers/UserController.php): the listing
 * filters and order, creation, partial update, the profile and password
 * actions of the authenticated user, and the admin-panel access check.
 */
module UserController {
  import opened Wrappers
  import opened Php
  import opened Seqs
  import opened Sorting
  import opened Laravel

  /** A `users` row; `password` holds the hash, never the clear text. */
  datatype User = User(id: nat, name: string, email: string, password: string, rol: string)

  /** The table: its rows and the next auto-increment id. */
  datatype UserTable = UserTable(rows: seq<User>, nextId: nat)

  /** Ids are unique and below the counter, and the `unique:users` rule keeps e-mails unique. */
  ghost predicate ValidTable(t: UserTable) {
    && (forall i, j :: 0 <= i < j < |t.rows| ==> t.rows[i].id != t.rows[j].id)
    && (forall i, j :: 0 <= i < j < |t.rows| ==> t.rows[i].email != t.rows[j].email)
    && (forall j :: 0 <= j < |t.rows| ==> t.rows[j].id < t.nextId)
  }

  /** The state after an action and what it answered. */
  datatype UserStep<T> = UserStep(table: UserTable, reply: Outcome<T>)

  const MAX_NAME: nat := 255
  const MAX_EMAIL: nat := 255
  const MIN_PASSWORD: nat := 8

  /** The roles a user may be given. */
  const ROLES: set<string> := {"autor", "administrador", "cliente"}

  /** The roles allowed into the administration panel. */
  const ADMIN_ROLES: set<string> := {"administrador", "autor"}

  /** `User::find($id)`. */
  function FindUser(rows: seq<User>, id: int): Option<nat> {
    FirstIndex(rows, (u: User) => u.id == id)
  }

  // ---------------------------------------------------------------------------
  // index

  /** `$needle` occurs in `$hay`: the `LIKE '%needle%'` test, as plain substring containment. */
  predicate Contains(hay: string, needle: string) {
    exists i :: 0 <= i <= |hay| && needle <= hay[i..]
  }

  /** The filters of `index`; each applies only when its parameter is not `empty()`. */
  predicate Matches(u: User, search: string, rol: string) {
    && (EmptyString(search) || Contains(u.name, search) || Contains(u.email, search))
    && (EmptyString(rol) || u.rol == rol)
  }

  function NegatedId(u: User): int {
    -(u.id as int)
  }

  /**
   * `index`: the users passing both filters, each exactly as often as in the
   * table, newest id first. Pagination is not modelled.
   */
  function Index(rows: seq<User>, search: string, rol: string): (r: seq<User>)
    ensures forall u :: multiset(r)[u] == if Matches(u, search, rol) then multiset(rows)[u] else 0
    ensures forall i, j :: 0 <= i < j < |r| ==> r[i].id >= r[j].id
  {
    var kept := Filter(rows, (u: User) => Matches(u, search, rol));
    var r := SortBy(kept, NegatedId);
    assert forall i, j :: 0 <= i < j < |r| ==> NegatedId(r[i]) <= NegatedId(r[j]);
    r
  }

  /** Two filter settings that accept the same users list the same users. */
  lemma SameFilterSameListing(rows: seq<User>, s1: string, r1: string, s2: string, r2: string)
    requires forall u :: Matches(u, s1, r1) == Matches(u, s2, r2)
    ensures multiset(Index(rows, s1, r1)) == multiset(Index(rows, s2, r2))
  {
    var a, b := Index(rows, s1, r1), Index(rows, s2, r2);
    assert forall u :: multiset(a)[u] == multiset(b)[u];
  }

  /** Without filters every user is listed. */
  lemma NoFiltersListEveryone(rows: seq<User>)
    ensures multiset(Index(rows, "", "")) == multiset(rows)
  {
    var r := Index(rows, "", "");
    forall u ensures multiset(r)[u] == multiset(rows)[u] {
      assert Matches(u, "", "");
    }
    assert multiset(r) == multiset(rows);
  }

  /** Because the test is `empty()`, a search or role of "0" filters nothing. */
  lemma ZeroIsNoFilter(rows: seq<User>, search: string, rol: string)
    ensures multiset(Index(rows, "0", rol)) == multiset(Index(rows, "", rol))
    ensures multiset(Index(rows, search, "0")) == multiset(Index(rows, search, ""))
  {
    assert EmptyString("0") && EmptyString("");
    SameFilterSameListing(rows, "0", rol, "", rol);
    SameFilterSameListing(rows, search, "0", search, "");
  }

  /** A non-empty role filter lists exactly the users with that role. */
  lemma RoleFilter(rows: seq<User>, rol: string, u: User)
    requires !EmptyString(rol)
    ensures u in Index(rows, "", rol) <==> u in rows && u.rol == rol
  {
    var r := Index(rows, "", rol);
    assert u in r <==> multiset(r)[u] > 0;
    assert u in rows <==> multiset(rows)[u] > 0;
  }

  // ---------------------------------------------------------------------------
  // store and update

  /** The fields of a store or update request; `None` is an absent key. */
  datatype UserRequest = UserRequest(
    name: Option<Value>,
    email: Option<Value>,
    password: Option<Value>,
    rol: Option<Value>)

  /** The `unique:users,email[,id]` rule: no row other than `except` holds that e-mail. */
  predicate EmailFree(rows: seq<User>, email: string, except: Option<int>) {
    forall j :: 0 <= j < |rows| && rows[j].email == email ==> except == Some(rows[j].id as int)
  }

  /** `required|string|email|max:255|unique:users,email[,id]`. */
  predicate EmailRule(rows: seq<User>, f: Option<Value>, except: Option<int>, svc: Services) {
    RequiredEmail(f, svc) && |f.value.s| <= MAX_EMAIL && EmailFree(rows, f.value.s, except)
  }

  /** The rules of `store`. */
  predicate ValidStore(rows: seq<User>, req: UserRequest, svc: Services) {
    && RequiredString(req.name, MAX_NAME)
    && EmailRule(rows, req.email, None, svc)
    && RequiredStringMin(req.password, MIN_PASSWORD)
    && RequiredIn(req.rol, ROLES)
  }

  /** `store`: after validation, a new user with the next id and the hashed password. */
  function Store(t: UserTable, req: UserRequest, svc: Services): (r: UserStep<User>)
    ensures !ValidStore(t.rows, req, svc) ==> r == UserStep(t, Refused(UNPROCESSABLE))
    ensures ValidStore(t.rows, req, svc) ==>
      && r.reply.Done? && r.reply.code == CREATED
      && var u := r.reply.value;
      && r.table == UserTable(t.rows + [u], t.nextId + 1)
      && u == User(t.nextId, Text(req.name), Text(req.email), svc.hashMake(Text(req.password)), Text(req.rol))
  {
    if !ValidStore(t.rows, req, svc) then UserStep(t, Refused(UNPROCESSABLE))
    else
      var u := User(t.nextId, Text(req.name), Text(req.email), svc.hashMake(Text(req.password)), Text(req.rol));
      UserStep(UserTable(t.rows + [u], t.nextId + 1), Done(CREATED, u))
  }

  /** The rejections of `store`: an unknown role, a short password, or a taken e-mail. */
  lemma StoreRejections(t: UserTable, req: UserRequest, svc: Services)
    requires
      || (req.rol.Some? && req.rol.value.Str? && req.rol.value.s !in ROLES)
      || (req.password.Some? && req.password.value.Str? && |req.password.value.s| < MIN_PASSWORD)
      || (req.email.Some? && req.email.value.Str? && exists j :: 0 <= j < |t.rows| && t.rows[j].email == req.email.value.s)
    ensures Store(t, req, svc) == UserStep(t, Refused(UNPROCESSABLE))
  {
  }

  /** A stored user keeps the table valid and can sign in with the password it was created with. */
  lemma StoreKeepsTableValid(t: UserTable, req: UserRequest, svc: Services)
    requires ValidTable(t) && SoundHashing(svc)
    requires ValidStore(t.rows, req, svc)
    ensures ValidTable(Store(t, req, svc).table)
    ensures svc.hashCheck(Text(req.password), Store(t, req, svc).reply.value.password)
  {
  }

  /** `sometimes|nullable|string|min:8`: absent, null, or at least eight characters. */
  predicate PasswordRule(f: Option<Value>) {
    f.None? || f.value.Null? || (f.value.Str? && |f.value.s| >= MIN_PASSWORD)
  }

  /** The rules of `update` for the user with id `self`; each applies only to a present key. */
  predicate ValidUpdate(rows: seq<User>, self: int, req: UserRequest, svc: Services) {
    && SometimesRequiredString(req.name, MAX_NAME)
    && (req.email.None? || EmailRule(rows, req.email, Some(self), svc))
    && PasswordRule(req.password)
    && (req.rol.None? || RequiredIn(req.rol, ROLES))
  }

  /** `(string) $v` for the values the password rule lets through: null becomes "". */
  function PasswordText(v: Value): string {
    if v.Str? then v.s else ""
  }

  /** The merge the controller performs: every present key is copied, a present password is hashed. */
  function MergeAsWritten(u: User, req: UserRequest, svc: Services): User
    requires SometimesRequiredString(req.name, MAX_NAME)
    requires req.email.None? || req.email.value.Str?
    requires req.rol.None? || req.rol.value.Str?
  {
    User(
      u.id,
      if req.name.Some? then Text(req.name) else u.name,
      if req.email.Some? then Text(req.email) else u.email,
      if req.password.Some? then svc.hashMake(PasswordText(req.password.value)) else u.password,
      if req.rol.Some? then Text(req.rol) else u.rol)
  }

  /** The intended merge: a null password, which `nullable` admits, leaves the password alone. */
  function Merge(u: User, req: UserRequest, svc: Services): User
    requires SometimesRequiredString(req.name, MAX_NAME)
    requires req.email.None? || req.email.value.Str?
    requires req.rol.None? || req.rol.value.Str?
  {
    User(
      u.id,
      if req.name.Some? then Text(req.name) else u.name,
      if req.email.Some? then Text(req.email) else u.email,
      if req.password.Some? && req.password.value.Str? then svc.hashMake(req.password.value.s) else u.password,
      if req.rol.Some? then Text(req.rol) else u.rol)
  }

  /** `update` as written: 404 for an unknown user, 422 for an invalid field, otherwise the merge. */
  function UpdateAsWritten(t: UserTable, id: int, req: UserRequest, svc: Services): (r: UserStep<User>)
    ensures FindUser(t.rows, id).None? ==> r == UserStep(t, Refused(NOT_FOUND))
    ensures FindUser(t.rows, id).Some? && !ValidUpdate(t.rows, id, req, svc) ==> r == UserStep(t, Refused(UNPROCESSABLE))
    ensures FindUser(t.rows, id).Some? && ValidUpdate(t.rows, id, req, svc) ==> r.reply.Done?
    ensures r.reply.Refused? ==> r.table == t
    ensures r.reply.Done? ==>
      var k := FindUser(t.rows, id).value;
      var before := t.rows[k];
      var after := r.reply.value;
      && r.reply.code == OK
      && r.table == UserTable(t.rows[k := after], t.nextId)
      && after.id == before.id
      && after.name == (if req.name.Some? then req.name.value.s else before.name)
      && after.email == (if req.email.Some? then req.email.value.s else before.email)
      && after.rol == (if req.rol.Some? then req.rol.value.s else before.rol)
      && after.password == (if req.password.Some? then svc.hashMake(PasswordText(req.password.value)) else before.password)
  {
    match FindUser(t.rows, id)
    case None => UserStep(t, Refused(NOT_FOUND))
    case Some(k) =>
      if !ValidUpdate(t.rows, id, req, svc) then UserStep(t, Refused(UNPROCESSABLE))
      else
        var u := MergeAsWritten(t.rows[k], req, svc);
        UserStep(UserTable(t.rows[k := u], t.nextId), Done(OK, u))
  }

  /**
   * `update`, with a null password leaving the stored hash alone: only the
   * present fields change, and only in the target row.
   */
  function Update(t: UserTable, id: int, req: UserRequest, svc: Services): (r: UserStep<User>)
    ensures FindUser(t.rows, id).None? ==> r == UserStep(t, Refused(NOT_FOUND))
    ensures FindUser(t.rows, id).Some? && !ValidUpdate(t.rows, id, req, svc) ==> r == UserStep(t, Refused(UNPROCESSABLE))
    ensures FindUser(t.rows, id).Some? && ValidUpdate(t.rows, id, req, svc) ==> r.reply.Done?
    ensures r.reply.Refused? ==> r.table == t
    ensures r.reply.Done? ==>
      var k := FindUser(t.rows, id).value;
      var before := t.rows[k];
      var after := r.reply.value;
      && r.reply.code == OK
      && r.table == UserTable(t.rows[k := after], t.nextId)
      && after.id == before.id
      && after.name == (if req.name.Some? then req.name.value.s else before.name)
      && after.email == (if req.email.Some? then req.email.value.s else before.email)
      && after.rol == (if req.rol.Some? then req.rol.value.s else before.rol)
      && after.password == (if req.password.Some? && req.password.value.Str?
                            then svc.hashMake(req.password.value.s) else before.password)
      && (after.rol in ROLES || after.rol == before.rol)
  {
    match FindUser(t.rows, id)
    case None => UserStep(t, Refused(NOT_FOUND))
    case Some(k) =>
      if !ValidUpdate(t.rows, id, req, svc) then UserStep(t, Refused(UNPROCESSABLE))
      else
        var u := Merge(t.rows[k], req, svc);
        UserStep(UserTable(t.rows[k := u], t.nextId), Done(OK, u))
  }

  /** As written, `{"password": null}` passes validation and replaces the stored hash with the hash of "", against which `Hash::check` accepts the empty password. */
  lemma NullPasswordAsWritten(t: UserTable, id: int, req: UserRequest, svc: Services)
    requires FindUser(t.rows, id).Some? && ValidUpdate(t.rows, id, req, svc)
    requires req.password == Some(Null)
    requires SoundHashing(svc)
    ensures UpdateAsWritten(t, id, req, svc).reply.value.password == svc.hashMake("")
    ensures svc.hashCheck("", UpdateAsWritten(t, id, req, svc).reply.value.password)
  {
  }

  /** The two versions of `update` differ only on a null password. */
  lemma AsWrittenAgreesOffNull(t: UserTable, id: int, req: UserRequest, svc: Services)
    requires req.password != Some(Null)
    ensures UpdateAsWritten(t, id, req, svc) == Update(t, id, req, svc)
  {
  }

  /** With the corrected merge a null password leaves the stored hash unchanged. */
  lemma NullPasswordKeepsHash(t: UserTable, id: int, req: UserRequest, svc: Services)
    requires FindUser(t.rows, id).Some? && ValidUpdate(t.rows, id, req, svc)
    requires req.password == Some(Null)
    ensures Update(t, id, req, svc).reply.value.password == t.rows[FindUser(t.rows, id).value].password
  {
  }

  /** Keeping one's own e-mail passes the uniqueness rule. */
  lemma OwnEmailAllowed(t: UserTable, id: int, svc: Services)
    requires ValidTable(t)
    requires FindUser(t.rows, id).Some?
    requires var u := t.rows[FindUser(t.rows, id).value]; svc.isEmail(u.email) && !Blank(u.email) && |u.email| <= MAX_EMAIL
    ensures var u := t.rows[FindUser(t.rows, id).value];
      Update(t, id, UserRequest(None, Some(Str(u.email)), None, None), svc) == UserStep(t, Done(OK, u))
  {
    var k := FindUser(t.rows, id).value;
    var u := t.rows[k];
    assert forall j :: 0 <= j < |t.rows| && t.rows[j].email == u.email ==> j == k;
    assert t.rows[k := u] == t.rows;
  }

  /** `update` keeps ids and e-mails unique. */
  lemma UpdateKeepsTableValid(t: UserTable, id: int, req: UserRequest, svc: Services)
    requires ValidTable(t)
    ensures ValidTable(Update(t, id, req, svc).table)
  {
    var r := Update(t, id, req, svc);
    if r.reply.Done? {
      var k := FindUser(t.rows, id).value;
      var rows := r.table.rows;
      forall i, j | 0 <= i < j < |rows|
        ensures rows[i].email != rows[j].email
      {
        if i != k && j != k {
          assert rows[i] == t.rows[i] && rows[j] == t.rows[j];
        } else if req.email.Some? {
          assert t.rows[k].id == id;
        }
      }
    }
  }

  // ---------------------------------------------------------------------------
  // The authenticated user's own profile and password

  /** The fields of a profile update. */
  datatype ProfileRequest = ProfileRequest(name: Option<Value>, email: Option<Value>, rol: Option<Value>)

  /** `required|string|max:255`, `required|email|unique:users,email,<id>`, `required|in:<roles>`. */
  predicate ValidProfile(rows: seq<User>, self: int, req: ProfileRequest, roles: set<string>, svc: Services) {
    && RequiredString(req.name, MAX_NAME)
    && RequiredEmail(req.email, svc) && EmailFree(rows, req.email.value.s, Some(self))
    && RequiredIn(req.rol, roles)
  }

  /**
   * `updateProfile`, for the user `auth()->id()` names: 401 when there is none,
   * 422 for an invalid field, otherwise name, e-mail and role are replaced.
   * `roles` is the set the `in:` rule lists.
   */
  function UpdateProfile(t: UserTable, authId: Option<int>, req: ProfileRequest, roles: set<string>, svc: Services): (r: UserStep<User>)
    ensures (authId.None? || FindUser(t.rows, authId.value).None?) ==> r == UserStep(t, Refused(UNAUTHORIZED))
    ensures r.reply.Done? <==>
      authId.Some? && FindUser(t.rows, authId.value).Some? && ValidProfile(t.rows, authId.value, req, roles, svc)
    ensures r.reply.Refused? ==> r.table == t
    ensures authId.Some? && FindUser(t.rows, authId.value).Some? && !ValidProfile(t.rows, authId.value, req, roles, svc)
      ==> r == UserStep(t, Refused(UNPROCESSABLE))
    ensures r.reply.Done? ==>
      var k := FindUser(t.rows, authId.value).value;
      && r.reply.code == OK
      && r.reply.value == User(t.rows[k].id, req.name.value.s, req.email.value.s, t.rows[k].password, req.rol.value.s)
      && r.table == UserTable(t.rows[k := r.reply.value], t.nextId)
      && r.reply.value.rol in roles
  {
    if authId.None? then UserStep(t, Refused(UNAUTHORIZED))
    else
      match FindUser(t.rows, authId.value)
      case None => UserStep(t, Refused(UNAUTHORIZED))
      case Some(k) =>
        if !ValidProfile(t.rows, authId.value, req, roles, svc) then UserStep(t, Refused(UNPROCESSABLE))
        else
          var u := t.rows[k];
          var u' := User(u.id, Text(req.name), Text(req.email), u.password, Text(req.rol));
          UserStep(UserTable(t.rows[k := u'], t.nextId), Done(OK, u'))
  }

  /** `updateProfile` of this controller: the profile update with `in:autor,administrador,cliente`. */
  function ProfileUpdate(t: UserTable, authId: Option<int>, req: ProfileRequest, svc: Services): (r: UserStep<User>)
    ensures r.reply.Done? ==> r.reply.value.rol in ROLES
    ensures req.rol.Some? && req.rol.value.Str? && req.rol.value.s !in ROLES ==> r.table == t && r.reply.Refused?
    ensures (req.rol == Some(Str("cliente")) && authId.Some? && FindUser(t.rows, authId.value).Some?
             && RequiredString(req.name, MAX_NAME) && RequiredEmail(req.email, svc)
             && EmailFree(t.rows, req.email.value.s, authId)) ==> r.reply.Done?
  {
    UpdateProfile(t, authId, req, ROLES, svc)
  }

  /** The fields of a password change. */
  datatype PasswordRequest = PasswordRequest(
    currentPassword: Option<Value>,
    password: Option<Value>,
    passwordConfirmation: Option<Value>)

  /** `current_password: required|string`, `password: required|string|min:8|confirmed`. */
  predicate ValidPasswordChange(req: PasswordRequest) {
    && RequiredText(req.currentPassword)
    && RequiredStringMin(req.password, MIN_PASSWORD)
    && Confirmed(req.password, req.passwordConfirmation)
  }

  /**
   * `updatePassword`: 401 without a user, 422 for invalid fields or a wrong
   * current password (hash untouched), otherwise the new password's hash.
   */
  function UpdatePassword(t: UserTable, authId: Option<int>, req: PasswordRequest, svc: Services): (r: UserStep<()>)
    ensures (authId.None? || FindUser(t.rows, authId.value).None?) ==> r == UserStep(t, Refused(UNAUTHORIZED))
    ensures authId.Some? && FindUser(t.rows, authId.value).Some? ==>
      var k := FindUser(t.rows, authId.value).value;
      && (!ValidPasswordChange(req) ==> r == UserStep(t, Refused(UNPROCESSABLE)))
      && ((ValidPasswordChange(req) && !svc.hashCheck(req.currentPassword.value.s, t.rows[k].password))
            ==> r == UserStep(t, Refused(UNPROCESSABLE)))
      && ((ValidPasswordChange(req) && svc.hashCheck(req.currentPassword.value.s, t.rows[k].password))
            ==> r == UserStep(UserTable(t.rows[k := t.rows[k].(password := svc.hashMake(req.password.value.s))], t.nextId), Done(OK, ())))
  {
    if authId.None? then UserStep(t, Refused(UNAUTHORIZED))
    else
      match FindUser(t.rows, authId.value)
      case None => UserStep(t, Refused(UNAUTHORIZED))
      case Some(k) =>
        if !ValidPasswordChange(req) then UserStep(t, Refused(UNPROCESSABLE))
        else if !svc.hashCheck(Text(req.currentPassword), t.rows[k].password) then UserStep(t, Refused(UNPROCESSABLE))
        else
          var u := t.rows[k].(password := svc.hashMake(Text(req.password)));
          UserStep(UserTable(t.rows[k := u], t.nextId), Done(OK, ()))
  }

  /** After a successful change the new password signs in; the current one only if it hashes alike. */
  lemma PasswordChangeTakesEffect(t: UserTable, authId: Option<int>, req: PasswordRequest, svc: Services)
    requires SoundHashing(svc)
    requires UpdatePassword(t, authId, req, svc).reply.Done?
    ensures var k := FindUser(t.rows, authId.value).value;
      svc.hashCheck(req.password.value.s, UpdatePassword(t, authId, req, svc).table.rows[k].password)
  {
  }

  // ---------------------------------------------------------------------------
  // checkAdminAccess

  /** `checkAdminAccess`: 401 without a user, 200 exactly for the admin roles, 403 otherwise. */
  function CheckAdminAccess(t: UserTable, authId: Option<int>): (r: Outcome<bool>)
    ensures (authId.None? || FindUser(t.rows, authId.value).None?) ==> r == Refused(UNAUTHORIZED)
    ensures authId.Some? && FindUser(t.rows, authId.value).Some? ==>
      var u := t.rows[FindUser(t.rows, authId.value).value];
      && (u.rol in ADMIN_ROLES <==> r == Done(OK, true))
      && (u.rol !in ADMIN_ROLES <==> r == Refused(FORBIDDEN))
  {
    if authId.None? then Refused(UNAUTHORIZED)
    else
      match FindUser(t.rows, authId.value)
      case None => Refused(UNAUTHORIZED)
      case Some(k) => if t.rows[k].rol in ADMIN_ROLES then Done(OK, true) else Refused(FORBIDDEN)
  }

  /** Of the three assignable roles, only `cliente` is kept out of the panel. */
  lemma AdminRoles(t: UserTable, authId: Option<int>)
    requires authId.Some? && FindUser(t.rows, authId.value).Some?
    requires t.rows[FindUser(t.rows, authId.value).value].rol in ROLES
    ensures CheckAdminAccess(t, authId).Refused? <==> t.rows[FindUser(t.rows, authId.value).value].rol == "cliente"
  {
  }
}

=== FILE: wrappers.dfy ===
/** Optional values, used for nullable columns, absent request fields and lookups that may miss. */
module Wrappers {

  datatype Option<+T> = None | Some(value: T) {

    /** The wrapped value, or `default` when there is none. */
    function GetOr(default: T): T {
      match this
      case Some(v) => v
      case None => default
    }
  }
}
